=== FILE: README.md ===
# Botino front end — a Dafny model

This project models the client-side logic of the Botino dashboard, a React single-page application for creating and running chat bots. It covers the following:

- **Session layer.** The authentication context restores the user from `localStorage`, signs in, signs up and signs out. The axios instance adds a response interceptor that tears the session down on HTTP 401.
- **Route protection.** `ProtectedRoute`, the `RequireAdminOrDev` wrapper and the route table in `App.tsx` decide which page a visitor sees.
- **Pages.** Login and sign-up, the dashboard overview, "My Bots" with its per-bot toggle, the create-bot modal, the developer docs browser, the messages inbox and the resizable sidebar.

Everything is written as immutable datatypes and pure transition functions. Whatever the browser or the backend supplies is an explicit input:

- a stored entry;
- the outcome of each request (`Reply<T>`, or a per-page reply type);
- a mouse position;
- the locale ordering used for sorting.

Untyped response bodies are a small JSON-like `Value` type. This keeps the application's JavaScript error handling exact: `||` truthiness, optional chaining, `String(x)` and `Array.join`.

Modules, one per component:

| file | module | models |
|---|---|---|
| option.dfy, text.dfy, lists.dfy, jsvalue.dfy | Opt, Text, Lists, JsValue | the JavaScript built-ins the components rely on (`trim`, `toLowerCase`, `includes`, `split`, `filter`, truthiness) |
| identity.dfy | Identity | the `User` record and browser storage |
| http.dfy | Http | `src/api/axios.ts` |
| session.dfy | Session | `src/contexts/AuthContext.tsx` |
| guards.dfy | Guards | `src/components/ProtectedRoute.tsx`, `src/App.tsx` |
| flows.dfy | Flows | page reloads across the session and the guards |
| bottoggle.dfy | BotToggle | `src/components/BotToggle.tsx` |
| fleet.dfy, mybots.dfy | Fleet, MyBotsPage | `src/pages/dashboard/MyBots.tsx` |
| dashboard.dfy | DashboardPage | `src/pages/Dashboard.tsx`, `src/hooks/useBots.ts` |
| createbot.dfy | CreateBot | `src/components/createBotModal.tsx` |
| loginpage.dfy, signuppage.dfy | LoginPage, SignupPage | `src/pages/Login.tsx`, `src/pages/Signup.tsx` |
| doclabel.dfy, docs.dfy | DocLabel, DocsPage | `src/pages/docs.tsx` |
| messages.dfy | MessagesPage | `src/pages/dashboard/Messages.tsx` |
| sidebar.dfy | Sidebar | `src/components/AppSidebar.tsx` |

The `fakeAuth` parameter that appears throughout stands for the build flag `VITE_FAKE_AUTH === "true"` (front-end-only mode).

## Model

| member | source | states |
|---|---|---|
| Http.BaseUrl | src/api/axios.ts:5-8 | the configured API address is used unless it is unset or empty, in which case it is http://localhost:8000 |
| Http.Intercept | src/api/axios.ts:11-27 | every reply is handed on unchanged. The "Session expired" notice appears exactly on a 401. A 401 removes "user" from storage and sends the browser to /login. Any other reply leaves the browser untouched |
| Http.StorageAfter | src/api/axios.ts:14-23 | the storage a rejected request leaves behind is what the interceptor leaves: a 401 removes "user", and every other key, and every other rejection, leaves storage as it was |
| Http.InterceptKeepsOtherKeys | src/api/axios.ts:21 | a 401 removes only the "user" entry: every other stored key survives with its value |
| Http.InterceptIdempotent | src/api/axios.ts:13-26 | handling the same 401 twice leaves the browser as handling it once |
| Identity.StoredUser | src/contexts/AuthContext.tsx:54-56 | a user is restorable exactly when "user" holds a user record, and the restored user is that record |
| Identity.RemoveKey | src/contexts/AuthContext.tsx:179 | removing a key deletes that key only and keeps every other entry |
| Session.IsAdmin | src/contexts/AuthContext.tsx:183 | a session is admin exactly when a user is signed in and that user's role is "admin" |
| Session.Mount | src/contexts/AuthContext.tsx:49-51 | the provider starts with no user, not authenticated and loading |
| Session.Bootstrap | src/contexts/AuthContext.tsx:53-70 | a stored user is restored and marked authenticated. Storage is untouched. Loading stays on only while the CSRF request is outstanding, which happens outside fake-auth mode |
| Session.CsrfSettled | src/contexts/AuthContext.tsx:64-66 | whether the CSRF request succeeds or fails, loading ends and the in-memory user and flag stay. Storage stays too, except that a 401 removes "user", because the request goes through the shared instance |
| Session.BootstrapRestores | src/contexts/AuthContext.tsx:53-70 | after start-up the session agrees with storage: admin status follows the stored record, and a stored user means authenticated |
| Session.Logout | src/contexts/AuthContext.tsx:170-180 | sign-out clears the user, the flag and the stored record, and leaves a consistent, persisted session |
| Session.LogoutIdempotent | src/contexts/AuthContext.tsx:170-180 | signing out twice is signing out once |
| Session.UserFromReply | src/contexts/AuthContext.tsx:92-99 | the session user takes id and e-mail from the reply. Its name is the part of the username before the first "@". Its role is admin exactly when the username contains "admin" |
| Session.DetailEntryText | src/contexts/AuthContext.tsx:121-123 | one issue renders as its dotted location, ": " and its message. A nullish entry, or a location that is present and not an array, raises a TypeError; an absent or null location renders as "undefined" |
| Session.DetailListText | src/contexts/AuthContext.tsx:120-123 | a list description fails exactly when some entry cannot be rendered |
| Session.DetailListOfIssues | src/contexts/AuthContext.tsx:120-123 | a list of well-formed issues is described as their texts joined by ", " |
| Session.LoginFailureDescription | src/contexts/AuthContext.tsx:116-128 | the description is built from a list `detail`, else a string `detail`, else a non-empty error message, else "Login failed." |
| Session.SingleIssueDescription | src/contexts/AuthContext.tsx:116-128 | a failure whose detail is a single issue is described by that issue's text, whatever the status or message |
| Session.LoginFailed | src/contexts/AuthContext.tsx:110-129 | a failed sign-in always signs out and posts /api/logout. It rejects exactly when building the description throws, and otherwise completes with that description |
| Session.Login | src/contexts/AuthContext.tsx:73-130 | fake-auth mode does nothing. Sign-in succeeds exactly when the CSRF fetch and the post succeed and the reply carries a user; the new session is then authenticated and persisted. Otherwise the session is signed out. The request order is GET /api/csrf and then POST /api/login. Consistency and persistence are preserved |
| Session.LoginRejectsOnlyOnMalformedDetail | src/contexts/AuthContext.tsx:118-128 | `login` rejects only when the error carries a list `detail` with an entry that cannot be rendered |
| Session.LoginPostsAppend | src/contexts/AuthContext.tsx:79-88 | the number of sign-in posts in a request log is additive over concatenation |
| Session.SignupFailureDescription | src/contexts/AuthContext.tsx:154-157 | a list `detail` is comma-joined. Any other truthy detail is used as is. A falsy detail becomes "Signup failed" |
| Session.Signup | src/contexts/AuthContext.tsx:133-167 | fake-auth mode does nothing. A failed CSRF fetch or post throws with the description built from that error's `detail`: the joined list, a truthy detail, or "Signup failed". The in-memory session is left alone, and storage too unless the error is a 401, which removes "user". A successful post runs `login` with the same e-mail and password, and a rejected `login` throws with an undefined description. Consistency is preserved, and persistence too unless a 401 stopped the signup |
| Session.SignupLogsInOnce | src/contexts/AuthContext.tsx:140-151 | after a successful registration exactly one sign-in post is made, after the signup post and with the same credentials |
| Session.SignupIgnoresName | src/contexts/AuthContext.tsx:133-149 | the display name entered at sign-up has no effect on anything sent or stored |
| Guards.ProtectedRoute | src/components/ProtectedRoute.tsx:10-27 | loading shows the skeleton, signed-out visitors are replaced to /login, non-admins on admin-only routes are replaced to /dashboard, and otherwise the children render, each exactly under its condition |
| Guards.ProtectedRouteMatchesTable | src/components/ProtectedRoute.tsx:14-26 | the guard agrees with an independent case table over all 16 input combinations |
| Guards.AdminOnlyIsStricter | src/components/ProtectedRoute.tsx:22-24 | whatever the admin-only guard admits, the plain guard admits |
| Guards.RequireAdminOrDev | src/App.tsx:45-51 | children exactly for an admin user, otherwise a non-replacing redirect to /dashboard |
| Guards.RequireAdminOrDevIgnoresLoading | src/App.tsx:45-51 | the wrapper admits a restored admin while the session is still loading, whereas the admin-only guard shows the skeleton |
| Guards.RequireAdminOrDevAgreesOnceLoaded | src/App.tsx:45-51 | once loaded and consistent, the wrapper and the admin-only guard admit the same sessions |
| Guards.Resolve | src/App.tsx:62-105 | the route table: a path's segments select the page and the wrapper around it, ignoring case, with unmatched paths going to the unguarded catch-all. Guards.RouteWrappers states which wrapper each path gets |
| Guards.RouteWrappers | src/App.tsx:62-105 | /dev-docs alone is wrapped by `RequireAdminOrDev`. The dashboard subtree has the plain guard and the admin subtree the admin-only guard. Every public page and the catch-all are unguarded |
| Guards.Render | src/App.tsx:62-105 | an unguarded route always renders its page. A guarded page renders exactly when loading is over and the visitor is signed in, and, on an admin-only page, is an admin; the developer page renders exactly for an admin. A signed-in non-admin on an admin page is redirected to /dashboard (replacing history). A guarded page shows the skeleton while loading and redirects to /login (replacing history) when signed out; /dev-docs sends a non-admin to /dashboard |
| Flows.Reload | src/contexts/AuthContext.tsx:53-70 | a full page load ends with loading off and the session signed in exactly when storage held a user record. A 401 on its CSRF fetch removes that record, so the /login load it forces starts signed out |
| Flows.SignInSurvivesReload | src/contexts/AuthContext.tsx:101-103 | what a successful sign-in stores brings back the same user on the next page load, and the dashboard admits it. The session stays persisted unless that load's CSRF fetch gets a 401, after which the following load is signed out |
| Flows.UnauthorizedSignsOutOfGuardedPages | src/api/axios.ts:14-23 | after a 401 from an axios request the forced page load is signed out. On that load every guarded path redirects to /login, /dev-docs to /dashboard, and every unguarded path, /login among them, renders |
| Flows.LoginPageIsOpen | src/App.tsx:70 | /login, where the interceptor sends the browser, is the login page and is unguarded |
| Flows.LogoutThenReload | src/contexts/AuthContext.tsx:177-179 | a reload after sign-out restores nobody |
| BotToggle.Mount | src/components/BotToggle.tsx:15-16 | the switch starts showing its prop, with nothing in flight |
| BotToggle.Target | src/components/BotToggle.tsx:19 | a click asks for "inactive" when the display shows "active", and for "active" otherwise |
| BotToggle.TargetTwice | src/components/BotToggle.tsx:19 | a click always asks for "active" or "inactive". Flipping twice returns to the start only for those two statuses |
| BotToggle.Click | src/components/BotToggle.tsx:18-29 | a disabled switch ignores the click. Otherwise the display flips at once, one request starts, and the prop is captured for rollback |
| BotToggle.Settle | src/components/BotToggle.tsx:31-54 | success keeps the flipped display and calls `onStatusChanged` once. Failure restores the captured prop and raises one error. Loading always ends |
| BotToggle.NewStatus | src/components/BotToggle.tsx:16 | a new prop does not re-synchronise the optimistic display |
| BotToggle.FailedToggleRollsBack | src/components/BotToggle.tsx:28-46 | a failed toggle shows the original status again without a refresh. A successful one shows the target and refreshes once |
| BotToggle.RollbackIsNotPreClickDisplay | src/components/BotToggle.tsx:46 | rollback goes to the prop, not to the display before the click |
| BotToggle.RunAccounted | src/components/BotToggle.tsx:18-62 | over any sequence of events, each request ends as exactly one refresh, as exactly one error, or is the single one still in flight |
| Fleet.ActiveCount | src/pages/dashboard/MyBots.tsx:239 | the number of active bots is at most the number of bots. It equals that number exactly when all are active, and is zero exactly when none is |
| Fleet.ActiveCountIsTally | src/pages/Dashboard.tsx:63 | the filter-and-count agrees with an independent tally |
| Fleet.TotalUsers | src/pages/Dashboard.tsx:64 | the user total is non-negative when every count is, and zero when no bot reports a count. Its value on every list is fixed by Fleet.TotalUsersIsSum |
| Fleet.TotalUsersAppend | src/pages/Dashboard.tsx:64 | the user total is additive over concatenation |
| Fleet.TotalUsersSingle | src/pages/Dashboard.tsx:64 | a single bot totals its own count, a missing count as 0 |
| Fleet.TotalUsersIsSum | src/pages/Dashboard.tsx:64 | the `reduce` total equals the sum of every bot's count, a missing count as 0, on every list |
| MyBotsPage.FetchStarted | src/pages/dashboard/MyBots.tsx:59-60 | a fetch turns loading on and keeps everything else |
| MyBotsPage.FetchSettled | src/pages/dashboard/MyBots.tsx:59-74 | an array reply replaces the bots, a non-array reply empties them, a failed request shows the sample bots, and loading ends |
| MyBotsPage.DummyFleetStats | src/pages/dashboard/MyBots.tsx:32-57 | the sample fleet has two active bots and 241 users |
| MyBotsPage.ToggleStarted | src/pages/dashboard/MyBots.tsx:77-78 | starting a toggle disables that bot's switch only |
| MyBotsPage.ToggleErrorDescription | src/pages/dashboard/MyBots.tsx:106-107 | the error toast shows the response `detail`, else its `message`, else "Could not toggle bot status." |
| MyBotsPage.ToggleSettled | src/pages/dashboard/MyBots.tsx:77-116 | the list is refetched exactly when the response body has a truthy `success`. Otherwise a destructive toast with a non-empty description appears. That bot's switch is enabled again, other bots' switches are untouched, and the bot list itself is kept |
| MyBotsPage.ToggleRoundTrip | src/pages/dashboard/MyBots.tsx:77-116 | starting and settling a toggle re-enables the switch and leaves every other bot's loading flag as it was |
| MyBotsPage.DeleteSettled | src/pages/dashboard/MyBots.tsx:118-134 | a deletion refetches exactly on success. Failure shows the response `detail`, or "Could not delete bot." |
| MyBotsPage.PlatformTheme | src/pages/dashboard/MyBots.tsx:144-182 | a known platform, in any letter case, gets its theme. Others get the slate theme |
| MyBotsPage.PlatformThemeIgnoresCase | src/pages/dashboard/MyBots.tsx:176 | the theme depends only on the lower-cased platform name |
| MyBotsPage.HeaderStats | src/pages/dashboard/MyBots.tsx:229-259 | total = bots, active = the number of bots whose status is "active" (so ≤ total, with equality exactly when all are active), users equal to the `reduce` total of every bot's count (missing as 0), non-negative when every count is, uptime "99.2%" |
| MyBotsPage.CardOf | src/pages/dashboard/MyBots.tsx:302-345 | a card shows its bot's theme and user count. The switch is checked and the "online" badge is lit exactly when the bot is active. The switch is disabled exactly while that bot toggles |
| MyBotsPage.RenderGrid | src/pages/dashboard/MyBots.tsx:278-383 | the skeleton shows exactly while loading and the first-bot prompt exactly for an empty loaded list. Otherwise there is one card per bot, in order |
| MyBotsPage.FailedLoadShowsSamples | src/pages/dashboard/MyBots.tsx:64-72 | after a failed load the grid shows the three sample cards |
| DashboardPage.Initial | src/hooks/useBots.ts:6-7 | the hook starts loading with no bots |
| DashboardPage.FetchStarted | src/hooks/useBots.ts:10-11 | a fetch turns loading on and keeps the bots |
| DashboardPage.FetchSettled | src/hooks/useBots.ts:10-27 | a parsed array replaces the bots and any other parsed body empties them. A rejected request keeps the previous bots. Loading ends |
| DashboardPage.ToggleBotStatus | src/pages/Dashboard.tsx:47-61 | the list is refetched exactly when the toggle request gets any HTTP response. Only a network error shows the error toast, and then the page is unchanged |
| DashboardPage.ForbiddenToggleStillRefetches | src/pages/Dashboard.tsx:48-53 | a 403 answer is treated as success: refetch, no error toast |
| DashboardPage.PlatformIcon | src/pages/Dashboard.tsx:101-110 | known lower-case platforms get their icon, others 🤖 |
| DashboardPage.PlatformGradient | src/pages/Dashboard.tsx:112-121 | known lower-case platforms get their gradient, others the grey one |
| DashboardPage.IconAndGradientAgree | src/pages/Dashboard.tsx:101-121 | a platform falls back to the default icon exactly when it falls back to the default gradient |
| DashboardPage.CapitalisedPlatformFallsBack | src/pages/Dashboard.tsx:109 | the lookup is case-sensitive: "Discord" gets the fallback, "discord" the game pad |
| DashboardPage.Stats | src/pages/Dashboard.tsx:63-99 | four cards: the bot count, the active count with "active/total online now", the user total, and "0.8s" |
| DashboardPage.ActiveRatioReadsBack | src/pages/Dashboard.tsx:78 | the decimal digits in the active card read back as the active count |
| DashboardPage.RowOf | src/pages/Dashboard.tsx:242-288 | a preview row shows its bot's name, users, icon and gradient, and is online exactly when the bot is active |
| DashboardPage.Render | src/pages/Dashboard.tsx:123-136 | the spinner shows exactly while loading and the empty-army screen exactly for no bots. Otherwise the stats cover every bot and the preview shows the first min(5, n) bots in order |
| DashboardPage.SixthBotCountedButHidden | src/pages/Dashboard.tsx:242 | with six or more bots the sixth is counted in the stats but not shown |
| CreateBot.PlatformFieldsShape | src/components/createBotModal.tsx:20-37 | the platform table offers exactly Discord, Telegram, Slack and Twitch. Each asks for at least one required field, and no field is both required and optional |
| CreateBot.Blank | src/components/createBotModal.tsx:40-47 | the modal opens with every field empty and the three AI keys present but blank |
| CreateBot.SelectPlatform | src/components/createBotModal.tsx:232-235 | choosing a platform clears the platform credentials and keeps the rest |
| CreateBot.SetCredential | src/components/createBotModal.tsx:55-57 | editing one credential changes that key only |
| CreateBot.SetAiCredential | src/components/createBotModal.tsx:59-61 | editing one AI field changes that key only; the platform credentials, platform and name stay |
| CreateBot.FirstMissing | src/components/createBotModal.tsx:77-85 | no field is reported exactly when every required field is filled, and a reported field is a required one |
| CreateBot.Validate | src/components/createBotModal.tsx:66-85 | "Missing fields" exactly when the name or platform is empty. "Missing AI credentials" exactly when those are present but the API key or username is empty. Submission goes ahead exactly when all of these and every required platform field are filled |
| CreateBot.CheckMessage | src/components/createBotModal.tsx:81 | a missing credential is reported as "FIELD is required for Platform." |
| CreateBot.PayloadOf | src/components/createBotModal.tsx:48-51 | the posted body has the trimmed name and the lower-cased platform. Its credentials are the AI and platform credentials merged, platform values winning, every value trimmed |
| CreateBot.BlankNameIsPostedEmpty | src/components/createBotModal.tsx:48 | a name of spaces passes the check, which reads the untrimmed name, and is posted as "" |
| CreateBot.Submit | src/components/createBotModal.tsx:63-107 | a request is posted exactly when validation passes. A success resets the form, closes the modal and announces the bot. A failure keeps the form open with the server's `detail` or "Could not create bot." |
| CreateBot.SlackNeedsSigningSecret | src/components/createBotModal.tsx:20-37 | a Slack form without a signing secret is refused with "SLACK_SIGNING_SECRET is required for Slack." |
| CreateBot.OptionalFieldsNeverBlock | src/components/createBotModal.tsx:77-85 | whether an optional credential is left blank or removed makes no difference to validation |
| LoginPage.Validate | src/pages/Login.tsx:22-38 | the form is refused when either field is empty, and then when the password is shorter than six characters |
| LoginPage.TestAccountFor | src/pages/Login.tsx:51-71 | exactly the two built-in test accounts are accepted in fake-auth mode. The admin account goes to /admin, the other to /dashboard |
| LoginPage.CheckToast | src/pages/Login.tsx:23-36 | each refused form gets its own titled toast |
| LoginPage.FailureToast | src/pages/Login.tsx:95-99 | a thrown error shows its message, or "Something went wrong during login" when the message is empty |
| LoginPage.EmailDestination | src/pages/Login.tsx:90-91 | an e-mail containing "admin" goes to /admin, any other to /dashboard |
| LoginPage.Submit | src/pages/Login.tsx:19-103 | as written: refused forms only toast. In fake-auth mode the test accounts set the user and storage, and other credentials toast. In real mode the page navigates unless `login` rejects |
| LoginPage.FailedLoginStillNavigates | src/pages/Login.tsx:88-91 | as written, a refused real sign-in still navigates to /dashboard, where the guard sends the visitor back to /login |
| LoginPage.TestLoginBouncedByGuard | src/pages/Login.tsx:74-80 | as written, the fake-auth admin login leaves the session unauthenticated, and /admin redirects to /login |
| LoginPage.SubmitIntended | src/pages/Login.tsx:19-103 | corrected: navigation happens exactly on a successful sign-in, and to /admin exactly for an admin. The navigated session is authenticated, persisted and consistent |
| LoginPage.IntendedDestinationAdmitted | src/pages/Login.tsx:88-91 | corrected: wherever the page navigates, the guard there admits the visitor |
| SignupPage.Submit | src/pages/Signup.tsx:26-58 | mismatched passwords only toast. Otherwise `signup` runs. Success toasts "Account created!" and goes to /dashboard; failure shows the generic toast |
| SignupPage.PageToastIgnoresServerDetail | src/pages/Signup.tsx:49-54 | the page's failure toast is the generic one whatever the server said, because `signup` throws a plain Error |
| SignupPage.RegisteredButSignedOut | src/pages/Signup.tsx:40-48 | when the follow-up sign-in fails, the page still reports success and goes to /dashboard, where the guard bounces the signed-out visitor |
| SignupPage.ListDetailRendersObjects | src/contexts/AuthContext.tsx:155-157 | as written, a list of validation issues is described as "[object Object]" |
| SignupPage.SignupDescriptionIntended | src/contexts/AuthContext.tsx:154-157 | corrected: a list `detail` is described issue by issue, as on sign-in, with "Signup failed" as the fallback. The result is always a non-empty string or the truthy detail |
| SignupPage.IntendedDescribesIssues | src/contexts/AuthContext.tsx:154-157 | corrected: a list of issues reads as their texts joined by ", " |
| SignupPage.IntendedSingleIssue | src/contexts/AuthContext.tsx:155-157 | corrected: a single issue reads as its own text, which always differs from what the code as written shows |
| DocLabel.ReplaceUnderscores | src/pages/docs.tsx:73 | every underscore becomes a space and nothing else changes |
| DocLabel.StripMd | src/pages/docs.tsx:73 | one trailing ".md" is removed, and nothing else |
| DocLabel.CapitalizeWords | src/pages/docs.tsx:73 | only the case of word-initial letters changes, and none is left lower-case |
| DocLabel.FormatLabel | src/pages/docs.tsx:72-74 | a label has no underscores, is three shorter exactly when the name ends in ".md", and matches the name up to case. Every word start is upper-cased, and every other character is the name's, with underscores as spaces |
| DocLabel.LabelNeverEndsWithMd | src/pages/docs.tsx:72-74 | no label ends in ".md" |
| DocLabel.CapitalizeIdempotent | src/pages/docs.tsx:73 | capitalising twice is capitalising once |
| DocLabel.FormatLabelIdempotent | src/pages/docs.tsx:72-74 | a label is its own label |
| DocsPage.FallbackContent | src/pages/docs.tsx:99-102 | an unreadable file is shown as a heading with its label and a warning |
| DocsPage.Mount | src/pages/docs.tsx:76-82 | the page starts loading, with the sidebar open, nothing ticked and no query. The remembered document becomes the active tab |
| DocsPage.Remember | src/pages/docs.tsx:142-144 | a non-empty active tab is written to storage, and nothing else changes |
| DocsPage.LoadedDocs | src/pages/docs.tsx:92-105 | one document per listed file, in order, with its content or the fallback text |
| DocsPage.Loaded | src/pages/docs.tsx:85-134 | as written: a failed listing shows the three sample documents; otherwise the listed files load. The first listed file becomes active, and the active tab is remembered |
| DocsPage.RememberedDocOverwritten | src/pages/docs.tsx:108 | as written, the remembered document is replaced by the first listed file, even when it was loaded |
| DocsPage.LoadedIntended | src/pages/docs.tsx:85-144 | corrected: the remembered tab is kept whenever it names a loaded document. Whenever documents exist, the active tab names one |
| DocsPage.RememberedDocKept | src/pages/docs.tsx:137-140 | corrected: the remembered document survives loading |
| DocsPage.Select | src/pages/docs.tsx:266-269 | choosing a document activates it, closes the mobile sidebar and remembers it |
| DocsPage.Insert | src/pages/docs.tsx:150 | insertion into a sorted list keeps it sorted and adds exactly the one document |
| DocsPage.Sort | src/pages/docs.tsx:150 | the list is sorted by file name and is a permutation of the input |
| DocsPage.Search | src/pages/docs.tsx:152-155 | a document is listed exactly when its label or content contains the query, ignoring case, in the original order, as often as it occurs there |
| DocsPage.SearchPermutes | src/pages/docs.tsx:150-157 | reordering the documents before searching reorders the results and changes nothing else, so sorting before or after the search lists the same documents |
| DocsPage.EmptyQueryListsAll | src/pages/docs.tsx:152-155 | an empty query lists every document |
| DocsPage.SearchIgnoresQueryCase | src/pages/docs.tsx:153-154 | the query's letter case does not matter |
| DocsPage.CurrentDoc | src/pages/docs.tsx:157 | the shown document exists exactly when some document has the active file name, and it is one of them |
| DocsPage.AfterLastColonOf | src/pages/docs.tsx:341 | the line number is recoverable from a checkbox id |
| DocsPage.CheckboxIdInjective | src/pages/docs.tsx:341 | different file/line pairs get different checkbox ids |
| DocsPage.Checked | src/pages/docs.tsx:342 | a ticked or unticked checkbox keeps its state, and an untouched one follows the markdown |
| DocsPage.Tick | src/pages/docs.tsx:146-148 | ticking records that checkbox's state and nothing else |
| DocsPage.TickIsLocal | src/pages/docs.tsx:146-148 | ticking one checkbox never changes another |
| DocsPage.Footer | src/pages/docs.tsx:295 | the footer starts with the count and uses the singular exactly for one document |
| DocsPage.Render | src/pages/docs.tsx:150-157 | the spinner shows while loading, and the empty notice shows for no documents. Otherwise the sidebar is sorted and is a permutation of the matching documents, and the current document exists exactly when the active tab names one |
| DocsPage.SelectShowsDocument | src/pages/docs.tsx:266-269 | choosing a listed document shows a document with that name |
| DocsPage.SubsequenceSorted | src/pages/docs.tsx:150-155 | filtering a sorted list keeps it sorted |
| MessagesPage.Initial | src/pages/dashboard/Messages.tsx:55 | the inbox starts with the sample conversations and no search |
| MessagesPage.FetchSettled | src/pages/dashboard/Messages.tsx:57-73 | an array reply replaces the conversations, and anything else restores the samples |
| MessagesPage.Filtered | src/pages/dashboard/Messages.tsx:75-79 | a conversation is listed exactly when its user, bot or last message contains the term, ignoring case, in order and as often as it occurs in the list |
| MessagesPage.EmptyTermListsAll | src/pages/dashboard/Messages.tsx:75-79 | an empty term lists everything |
| MessagesPage.EmptyStateMeansNoMatch | src/pages/dashboard/Messages.tsx:187 | "No conversations found" shows exactly when a non-empty term matches nothing |
| MessagesPage.NoStateForEmptyListWithoutTerm | src/pages/dashboard/Messages.tsx:187 | an empty inbox without a search shows no empty-state card |
| MessagesPage.Type | src/pages/dashboard/Messages.tsx:55-79 | typing changes only the term |
| MessagesPage.PlatformIcon | src/pages/dashboard/Messages.tsx:81-89 | known platforms, in any letter case, get their icon, and others get 🤖 |
| MessagesPage.PlatformIconIgnoresCase | src/pages/dashboard/Messages.tsx:88 | the icon depends only on the lower-cased platform |
| MessagesPage.StatusColor | src/pages/dashboard/Messages.tsx:91-98 | each of the three known statuses has its own colour, and every other status gets the slate one |
| Sidebar.Initial | src/components/AppSidebar.tsx:107-109 | the sidebar opens 280 pixels wide, expanded and not resizing |
| Sidebar.Step | src/components/AppSidebar.tsx:119-155 | a press starts resizing when the handle is shown. A move while resizing takes the pointer's x only within 240–400. A release stops resizing. The collapse button flips only the collapsed flag. The width bounds are preserved |
| Sidebar.RunWithinBounds | src/components/AppSidebar.tsx:119-155 | no sequence of mouse and button events takes the width outside 240–400 |
| Sidebar.MovesWithoutPressKeepWidth | src/components/AppSidebar.tsx:121-122 | moving the mouse without pressing the handle changes nothing |
| Sidebar.CurrentWidth | src/components/AppSidebar.tsx:159 | a collapsed sidebar is 80 pixels wide, otherwise it is the dragged width |
| Sidebar.ToggleTwice | src/components/AppSidebar.tsx:153-155 | collapsing and expanding returns to the same sidebar |
| Sidebar.MenuFor | src/components/AppSidebar.tsx:113-272 | paths starting with /admin get the admin menu under "Admin Zone", others the user menu under "Main". The Admin Panel link appears exactly for admins outside /admin |
| Sidebar.AtMostOneHighlighted | src/components/AppSidebar.tsx:157 | at most one menu entry is highlighted |
| Sidebar.MenusMatchTheirRoutes | src/components/AppSidebar.tsx:27-101 | every admin menu link is an admin route and no user menu link is |
| Sidebar.PrefixCatchesLookalikes | src/components/AppSidebar.tsx:113 | the prefix test also treats /administrator as an admin route |
| Text.Trim | src/components/createBotModal.tsx:48-51 | a trimmed string is a contiguous slice of the original, with no white space at either end |
| Text.TrimIdempotent | src/components/createBotModal.tsx:48-51 | trimming twice is trimming once |
| Text.Lower | src/pages/dashboard/Messages.tsx:76-78 | lower-casing maps each character and keeps the length |
| Text.TakeUntil | src/contexts/AuthContext.tsx:95 | the part before the first separator is a prefix without the separator, followed by the separator or the end |
| Text.IncludesIffOccurs | src/contexts/AuthContext.tsx:96 | `includes` holds exactly when the substring occurs at some position |
| Text.NatToStringRoundTrip | src/pages/Dashboard.tsx:69-85 | the decimal rendering of a count reads back as that count |
| Lists.Filter | src/pages/docs.tsx:152-155 | filtering keeps exactly the elements that pass, each as often as in the input |
| Lists.FilterIsSubsequence | src/pages/dashboard/Messages.tsx:75-79 | filtering keeps the survivors in their original order |
| JsValue.Or | src/pages/dashboard/MyBots.tsx:107 | `a || b` is truthy exactly when one side is, and is `a` when `a` is truthy |

## Left out

- Network, timing and rendering. Requests become explicit outcomes. Toasts are recorded as values or not at all. The `setTimeout` before navigation and React's batching of state updates are not modelled. `logout` is not awaited by `login`'s catch block, so the model applies its effects at once.
- Foreign data under "user". A stored value that is not a user record the app wrote is treated as absent; `JSON.parse` of arbitrary text is not modelled.
- Numbers. Only integers are modelled. Decimal counts, `NaN` and string-valued `users_count` fields are out of scope.
- Text. Case mapping and white space are ASCII plus the JavaScript white-space set. Full Unicode `toLowerCase`, UTF-16 lengths and `localeCompare` collation are not modelled. Sorting is parameterised by an arbitrary total preorder, and its stability is not stated.
- Object keys. Keys inherited from `Object.prototype` (such as "constructor") in the icon, theme and field lookups are not modelled.
- Form validation. The browser's constraint validation through `required` on inputs is not modelled; only the handlers' own checks are.
- Docs. A per-file reply without `content` is not modelled. Rendering of the markdown itself is not modelled, beyond checkbox ids and state.
- Display helpers. The createBotModal theme lookup and MyBots `formatDate`/`toLocaleDateString` are display-only and are not modelled. So are the sidebar's tooltips and the navigation helpers that only call `navigate`.
- MyBotsPage.DeleteSettled: `deleteBot` is defined but no control on the page calls it; it is modelled as the handler alone.
- Other pages. The pages and components outside the core (Navbar, AdminPanel, BotConfig, Analytics, Billing, settings, marketing pages) are not part of this model.
- Requests outside the axios instance. `useBots` (src/hooks/useBots.ts:13), the dashboard toggle (src/pages/Dashboard.tsx:49) and the docs loader (src/pages/docs.tsx:89, 95) call `fetch` directly, so the 401 interceptor never sees their replies; a 401 there is an ordinary failure and signs nobody out.
- Forced reload after a 401 on the pages. LoginPage, MyBotsPage, CreateBot, BotToggle and MessagesPage (whose fetch at src/pages/dashboard/Messages.tsx:60 goes through the shared instance) see a reply after the interceptor has run and do not record the /login page load a 401 forces; that load is stated once, by Flows.UnauthorizedSignsOutOfGuardedPages. In particular LoginPage.FailedLoginStillNavigates describes the page's own navigation, which a 401 refusal pre-empts by loading /login. Session.CsrfSettled, Session.Signup and Flows.Reload do apply the interceptor's removal of "user" from storage, but likewise keep the in-memory session that the forced load discards.
- Session.Signup: persistence (the stored record matching the in-memory user) is not promised after a 401 on the CSRF fetch or the registration post. The interceptor has removed "user" while the hooks still hold the user, until the forced /login load discards them.
- Error wording. The TypeError messages raised while building a description follow V8's wording; other engines word them differently.

## Findings

| source | as written | input that shows it | evidently intended | confidence | as-written member | corrected member |
|---|---|---|---|---|---|---|
| src/pages/Login.tsx:88-91 | `login` swallows every failure, so the page navigates after a refused sign-in | real mode, valid-looking form, POST /api/login fails with a string `detail` | navigate only after a successful sign-in | not executed | LoginPage.FailedLoginStillNavigates | LoginPage.SubmitIntended |
| src/pages/Login.tsx:74-80 | the fake-auth login sets the user but never `isAuthenticated`, so the guard on the target bounces to /login | fake-auth mode, admin@admin.com / administrator | the test account is signed in and reaches /admin | not executed | LoginPage.TestLoginBouncedByGuard | LoginPage.IntendedDestinationAdmitted |
| src/contexts/AuthContext.tsx:155-157 | a list `detail` is joined with `Array.join`, rendering each issue object as "[object Object]" | signup answered 422 with `detail: [{loc: ["body","password"], msg: "too short"}]` | each issue rendered as "loc: msg", as sign-in does | not executed | SignupPage.ListDetailRendersObjects | SignupPage.SignupDescriptionIntended |
| src/pages/docs.tsx:108 | the load always activates the first listed file, overwriting the document restored from storage | lastDoc "faq.md", files ["api.md", "faq.md"] | keep the remembered document when it was loaded | not executed | DocsPage.RememberedDocOverwritten | DocsPage.LoadedIntended |

=== FILE: bottoggle.dfy ===
/**
 * `BotToggle`: a switch that flips the displayed status at once, posts the
 * toggle request, and on failure rolls the display back to the status it was
 * given. The switch is disabled while a request is in flight.
 */
module BotToggle {

  /**
   * `status` is the current prop; `shown` the optimistic display; `rollback` the
   * prop captured by the click handler in flight; `posts`, `refreshes` and
   * `errors` count toggle requests, `onStatusChanged` calls and error toasts.
   */
  datatype Toggle = Toggle(status: string, shown: string, isLoading: bool, rollback: string,
                           posts: nat, refreshes: nat, errors: nat)

  /** The display starts at the prop; nothing is in flight. */
  function Mount(status: string): (t: Toggle)
    ensures t.shown == status && !t.isLoading && t.posts == 0 && t.refreshes == 0 && t.errors == 0
  {
    Toggle(status, status, false, status, 0, 0, 0)
  }

  /** The status a click asks for. */
  function Target(shown: string): string {
    if shown == "active" then "inactive" else "active"
  }

  /** Flipping twice returns to the start exactly for the two known statuses. */
  lemma TargetTwice(shown: string)
    ensures Target(Target(shown)) == shown <==> shown == "active" || shown == "inactive"
    ensures Target(shown) == "active" || Target(shown) == "inactive"
  {
  }

  /**
   * A click on the switch. While a request is in flight the switch is disabled and
   * nothing happens; otherwise the display shows the target and a request starts.
   */
  function Click(t: Toggle): (r: Toggle)
    ensures t.isLoading ==> r == t
    ensures !t.isLoading ==>
              && r.shown == Target(t.shown) && r.isLoading
              && r.rollback == t.status && r.status == t.status
              && r.posts == t.posts + 1 && r.refreshes == t.refreshes && r.errors == t.errors
  {
    if t.isLoading then t
    else t.(shown := Target(t.shown), isLoading := true, rollback := t.status, posts := t.posts + 1)
  }

  /**
   * The request settles. Success keeps the display and calls `onStatusChanged`
   * once; failure restores the captured prop. Either way loading ends.
   * With nothing in flight there is nothing to settle.
   */
  function Settle(t: Toggle, ok: bool): (r: Toggle)
    ensures !t.isLoading ==> r == t
    ensures !r.isLoading
    ensures t.isLoading && ok ==> r.shown == t.shown && r.refreshes == t.refreshes + 1 && r.errors == t.errors
    ensures t.isLoading && !ok ==> r.shown == t.rollback && r.refreshes == t.refreshes && r.errors == t.errors + 1
    ensures r.posts == t.posts && r.status == t.status
  {
    if !t.isLoading then t
    else if ok then t.(isLoading := false, refreshes := t.refreshes + 1)
    else t.(isLoading := false, shown := t.rollback, errors := t.errors + 1)
  }

  /** The parent re-renders with a new prop; the optimistic display is not re-synchronised. */
  function NewStatus(t: Toggle, status: string): (r: Toggle)
    ensures r.shown == t.shown && r.status == status && r.isLoading == t.isLoading
  {
    t.(status := status)
  }

  /** A failed toggle of an untouched switch shows its prop again. */
  lemma FailedToggleRollsBack(status: string)
    ensures Settle(Click(Mount(status)), false).shown == status
    ensures Settle(Click(Mount(status)), false).refreshes == 0
    ensures Settle(Click(Mount(status)), true).shown == Target(status)
    ensures Settle(Click(Mount(status)), true).refreshes == 1
  {
  }

  /**
   * The rollback target is the prop, not the display before the click: after a
   * success whose refresh did not change the prop, a failing second toggle lands
   * on "active" although "inactive" was displayed before it.
   */
  lemma RollbackIsNotPreClickDisplay()
    ensures var t := Settle(Click(Mount("active")), true);
            t.shown == "inactive" && Settle(Click(t), false).shown == "active"
  {
  }

  datatype Event = ClickEvent | SettleEvent(ok: bool) | PropEvent(status: string)

  function Step(t: Toggle, e: Event): Toggle {
    match e
    case ClickEvent => Click(t)
    case SettleEvent(ok) => Settle(t, ok)
    case PropEvent(status) => NewStatus(t, status)
  }

  function Run(t: Toggle, events: seq<Event>): Toggle
    decreases |events|
  {
    if |events| == 0 then t else Run(Step(t, events[0]), events[1..])
  }

  /**
   * At most one request is ever in flight, and every other request has settled
   * as exactly one `onStatusChanged` call or exactly one error toast.
   */
  predicate Accounted(t: Toggle) {
    t.refreshes + t.errors + (if t.isLoading then 1 else 0) == t.posts
  }

  /** Every sequence of clicks, settlements and prop changes keeps the accounting. */
  lemma {:induction false} RunAccounted(t: Toggle, events: seq<Event>)
    requires Accounted(t)
    ensures Accounted(Run(t, events))
    ensures Run(t, events).posts >= t.posts
    ensures Run(t, events).refreshes >= t.refreshes
    decreases |events|
  {
    if |events| > 0 {
      var next := Step(t, events[0]);
      assert Accounted(next);
      RunAccounted(next, events[1..]);
    }
  }
}

=== FILE: createbot.dfy ===
/**
 * The "Create New Bot" dialog: the per-platform credential table, the
 * submit-time checks in their order, the payload it posts, and what a
 * settled request does to the form.
 */
module CreateBot {
  import opened Opt
  import opened Text
  import opened JsValue
  import opened Http

  /** The credential keys a platform asks for. */
  datatype Fields = Fields(required: seq<string>, optional: seq<string>)

  /** `platformFields`, keyed by the platform's display name as the select offers it. */
  const PlatformFields: map<string, Fields> := map[
    "Discord" := Fields(["DISCORD_BOT_TOKEN"], ["DISCORD_ALLOWED_GUILDS", "DISCORD_ALLOWED_CHANNELS"]),
    "Telegram" := Fields(["TELEGRAM_BOT_TOKEN"], ["TELEGRAM_ALLOWED_GROUPS", "TELEGRAM_ALLOW_PRIVATE_MESSAGES"]),
    "Slack" := Fields(["SLACK_BOT_TOKEN", "SLACK_APP_TOKEN", "SLACK_SIGNING_SECRET"], []),
    "Twitch" := Fields(["TWITCH_OAUTH", "TWITCH_CHANNEL"], [])
  ]

  /**
   * The platform table offers four platforms; each asks for at least one
   * required field, and no field is both required and optional.
   */
  lemma PlatformFieldsShape()
    ensures PlatformFields.Keys == {"Discord", "Telegram", "Slack", "Twitch"}
    ensures forall p :: p in PlatformFields ==> |PlatformFields[p].required| >= 1
    ensures forall p, k :: p in PlatformFields && k in PlatformFields[p].required ==> k !in PlatformFields[p].optional
  {
  }

  const ApiKey := "SHAPESINC_API_KEY"
  const ShapeUsername := "SHAPESINC_SHAPE_USERNAME"
  const AppId := "SHAPESINC_APP_ID"

  /** The AI credentials as the dialog starts and as a reset leaves them: three empty entries. */
  const BlankAi: map<string, string> := map[ApiKey := "", ShapeUsername := "", AppId := ""]

  datatype Form = Form(
    name: string,
    platform: string,
    credentials: map<string, string>,
    ai: map<string, string>,
    isLoading: bool
  )

  function Blank(): (f: Form)
    ensures f.name == "" && f.platform == "" && f.credentials == map[] && f.ai == BlankAi && !f.isLoading
  {
    Form("", "", map[], BlankAi, false)
  }

  /** A record entry is truthy: present and not the empty string. */
  predicate Filled(m: map<string, string>, key: string) {
    key in m && m[key] != ""
  }

  /** Choosing a platform discards every platform credential typed so far and keeps the AI ones. */
  function SelectPlatform(f: Form, platform: string): (r: Form)
    ensures r.platform == platform && r.credentials == map[]
    ensures r.name == f.name && r.ai == f.ai && r.isLoading == f.isLoading
  {
    f.(platform := platform, credentials := map[])
  }

  /** Typing into a platform field sets that key and no other. */
  function SetCredential(f: Form, key: string, value: string): (r: Form)
    ensures key in r.credentials && r.credentials[key] == value
    ensures forall k :: k != key ==> (k in r.credentials <==> k in f.credentials)
    ensures forall k :: k != key && k in f.credentials ==> r.credentials[k] == f.credentials[k]
    ensures r.ai == f.ai && r.platform == f.platform && r.name == f.name
  {
    f.(credentials := f.credentials[key := value])
  }

  /** Typing into an AI field sets that key and no other; the platform fields stay. */
  function SetAiCredential(f: Form, key: string, value: string): (r: Form)
    ensures key in r.ai && r.ai[key] == value
    ensures forall k :: k != key ==> (k in r.ai <==> k in f.ai)
    ensures forall k :: k != key && k in f.ai ==> r.ai[k] == f.ai[k]
    ensures r.credentials == f.credentials && r.platform == f.platform && r.name == f.name
    ensures r.isLoading == f.isLoading
  {
    f.(ai := f.ai[key := value])
  }

  /**
   * The first of `required` that is not filled, scanning in order, or None
   * when all are filled.
   */
  function FirstMissing(required: seq<string>, credentials: map<string, string>): (r: Option<string>)
    ensures r.None? <==> forall i :: 0 <= i < |required| ==> Filled(credentials, required[i])
    ensures r.Some? ==> exists i :: 0 <= i < |required| && required[i] == r.value
                                   && !Filled(credentials, r.value)
                                   && forall j :: 0 <= j < i ==> Filled(credentials, required[j])
    decreases |required|
  {
    if |required| == 0 then None
    else if !Filled(credentials, required[0]) then Some(required[0])
    else
      var rest := FirstMissing(required[1..], credentials);
      assert forall i :: 1 <= i < |required| ==> required[i] == required[1..][i - 1];
      rest
  }

  /** Both mandatory AI entries are filled. */
  predicate AiFilled(f: Form) {
    Filled(f.ai, ApiKey) && Filled(f.ai, ShapeUsername)
  }

  /** Every required field of the chosen platform is filled; an unknown platform requires none. */
  predicate RequiredFilled(f: Form) {
    f.platform in PlatformFields ==>
      forall i :: 0 <= i < |PlatformFields[f.platform].required| ==>
        Filled(f.credentials, PlatformFields[f.platform].required[i])
  }

  /** `field` is a required field of the chosen platform and is not filled. */
  predicate IsRequiredGap(f: Form, field: string) {
    f.platform in PlatformFields && field in PlatformFields[f.platform].required && !Filled(f.credentials, field)
  }

  /** The outcome of `handleSubmit`'s checks. */
  datatype Check = MissingFields | MissingAi | MissingCredential(field: string) | Passed

  /**
   * The checks in their order: a name and a platform (the name untrimmed),
   * then the API key and shape username, then the first unfilled required
   * field of a known platform.
   */
  function Validate(f: Form): (c: Check)
    ensures c.MissingFields? <==> f.name == "" || f.platform == ""
    ensures c.MissingAi? <==> (f.name != "" && f.platform != "" && !AiFilled(f))
    ensures c.Passed? <==> (f.name != "" && f.platform != "" && AiFilled(f) && RequiredFilled(f))
    ensures c.MissingCredential? ==> IsRequiredGap(f, c.field)
  {
    if f.name == "" || f.platform == "" then MissingFields
    else if !AiFilled(f) then MissingAi
    else if f.platform in PlatformFields then
      match FirstMissing(PlatformFields[f.platform].required, f.credentials)
      case Some(field) => MissingCredential(field)
      case None => Passed
    else Passed
  }

  /** The toast a failed check shows. */
  function CheckMessage(f: Form, c: Check): (m: string)
    requires !c.Passed?
    ensures c.MissingCredential? ==> m == c.field + " is required for " + f.platform + "."
  {
    match c
    case MissingFields => "Please fill in all required fields."
    case MissingAi => "Shapes.inc API key and username are required."
    case MissingCredential(field) => field + " is required for " + f.platform + "."
  }

  /** The body of `POST /api/bots`. */
  datatype Payload = Payload(name: string, platform: string, credentials: map<string, string>)

  /**
   * The payload: the trimmed name, the lower-cased platform, and the AI and
   * platform credentials merged (a platform key wins on a clash) with every
   * value trimmed.
   */
  function PayloadOf(f: Form): (p: Payload)
    ensures p.name == Trim(f.name) && p.platform == Lower(f.platform)
    ensures p.credentials.Keys == f.ai.Keys + f.credentials.Keys
    ensures forall k :: k in f.credentials ==> p.credentials[k] == Trim(f.credentials[k])
    ensures forall k :: k in f.ai && k !in f.credentials ==> p.credentials[k] == Trim(f.ai[k])
  {
    Payload(Trim(f.name), Lower(f.platform), TrimValues(f.ai + f.credentials))
  }

  /** Every value of a record trimmed, the keys kept. */
  function TrimValues(m: map<string, string>): (r: map<string, string>)
    ensures r.Keys == m.Keys
    ensures forall k :: k in m ==> r[k] == Trim(m[k])
  {
    map k | k in m :: Trim(m[k])
  }

  /** A name of spaces passes the check, since it looks at the untrimmed name, and is posted empty. */
  lemma BlankNameIsPostedEmpty(f: Form)
    requires f.name == "   " && Validate(f).Passed?
    ensures PayloadOf(f).name == ""
  {
    TrimAllSpace(f.name);
  }

  datatype Toast = Toast(title: string, description: Value, destructive: bool)

  /**
   * A submission: the form afterwards, the payload if one was posted,
   * whether `onBotCreated` and `onClose` were called, and the toast.
   */
  datatype Submission = Submission(form: Form, posted: Option<Payload>, created: bool, closed: bool, toast: Toast)

  /**
   * `handleSubmit` run to completion against the server's reply. A failed
   * check shows its toast and posts nothing; a posted form is reset and the
   * dialog closed on success, and kept on failure with `detail` or a fallback
   * reported; the loading flag is down once the request settles.
   */
  function Submit(f: Form, reply: Reply<()>): (s: Submission)
    ensures s.posted.Some? <==> Validate(f).Passed?
    ensures s.posted.Some? ==> s.posted.value == PayloadOf(f) && !s.form.isLoading
    ensures s.posted.None? ==> s.form == f && !s.created && !s.closed && s.toast.destructive
    ensures s.created <==> s.posted.Some? && reply.Success?
    ensures s.closed <==> s.created
    ensures s.created ==> s.form == Blank() && s.toast.description == Str("Your " + f.platform + " bot is ready.")
    ensures s.posted.Some? && reply.Failure? ==>
              s.form == f.(isLoading := false)
              && s.toast.description == Or(Detail(reply.error), Str("Could not create bot."))
  {
    var c := Validate(f);
    if !c.Passed? then
      var title := if c.MissingFields? then "Missing fields"
                   else if c.MissingAi? then "Missing AI credentials"
                   else "Missing credentials";
      Submission(f, None, false, false, Toast(title, Str(CheckMessage(f, c)), true))
    else
      match reply
      case Success(_) =>
        Submission(Blank(), Some(PayloadOf(f)), true, true,
                   Toast("Bot created!", Str("Your " + f.platform + " bot is ready."), false))
      case Failure(e) =>
        Submission(f.(isLoading := false), Some(PayloadOf(f)), false, false,
                   Toast("Error", Or(Detail(e), Str("Could not create bot.")), true))
  }

  /** Slack asks for all three tokens: two filled and the signing secret missing names the secret. */
  lemma SlackNeedsSigningSecret(f: Form)
    requires f.name == "helper" && f.platform == "Slack"
    requires f.ai == map[ApiKey := "k", ShapeUsername := "u", AppId := ""]
    requires f.credentials == map["SLACK_BOT_TOKEN" := "b", "SLACK_APP_TOKEN" := "a"]
    ensures Validate(f) == MissingCredential("SLACK_SIGNING_SECRET")
    ensures CheckMessage(f, Validate(f)) == "SLACK_SIGNING_SECRET is required for Slack."
  {
    var req := PlatformFields[f.platform].required;
    assert req == ["SLACK_BOT_TOKEN", "SLACK_APP_TOKEN", "SLACK_SIGNING_SECRET"];
    assert Filled(f.credentials, "SLACK_BOT_TOKEN");
    assert Filled(f.credentials, "SLACK_APP_TOKEN");
    assert !Filled(f.credentials, "SLACK_SIGNING_SECRET");
    assert req[1..][1..] == ["SLACK_SIGNING_SECRET"];
    assert FirstMissing(req[1..][1..], f.credentials) == Some("SLACK_SIGNING_SECRET");
    assert FirstMissing(req, f.credentials) == Some("SLACK_SIGNING_SECRET");
    assert AiFilled(f);
  }

  /** Optional fields never block a submission. */
  lemma OptionalFieldsNeverBlock(f: Form, key: string)
    requires f.platform in PlatformFields && key in PlatformFields[f.platform].optional
    requires key !in PlatformFields[f.platform].required
    ensures Validate(f.(credentials := f.credentials[key := ""])) == Validate(f.(credentials := f.credentials - {key}))
  {
    var a := f.credentials[key := ""];
    var b := f.credentials - {key};
    var req := PlatformFields[f.platform].required;
    assert forall i :: 0 <= i < |req| ==> (Filled(a, req[i]) <==> Filled(b, req[i]));
    FirstMissingAgrees(req, a, b);
  }

  /** Two credential records that agree on which required keys are filled give the same first miss. */
  lemma {:induction false} FirstMissingAgrees(required: seq<string>, a: map<string, string>, b: map<string, string>)
    requires forall i :: 0 <= i < |required| ==> (Filled(a, required[i]) <==> Filled(b, required[i]))
    ensures FirstMissing(required, a) == FirstMissing(required, b)
    decreases |required|
  {
    if |required| > 0 {
      FirstMissingAgrees(required[1..], a, b);
    }
  }
}

=== FILE: dashboard.dfy ===
/**
 * The dashboard home: the bot list it loads through `useBots`, the header
 * figures, the five-row preview, the exact-match platform icon and gradient
 * lookups, and the plain-fetch status toggle.
 */
module DashboardPage {
  import opened Opt
  import opened Text
  import opened JsValue
  import opened Fleet

  /** `useBots` state: the list and the loading flag (initially true). */
  datatype Page = Page(bots: seq<Bot>, loading: bool)

  function Initial(): (p: Page)
    ensures p.loading && p.bots == []
  {
    Page([], true)
  }

  /** How `fetch("/api/bots")` followed by `res.json()` ends: a parsed body, or a rejection. */
  datatype Fetched = Parsed(rows: Option<seq<Bot>>) | Rejected

  /**
   * `useBots().fetchBots` settling: an array body replaces the list, any other
   * body empties it, and a rejection keeps the previous list (it only toasts).
   * Loading ends in every case.
   */
  function FetchSettled(p: Page, f: Fetched): (r: Page)
    ensures !r.loading
    ensures f.Parsed? && f.rows.Some? ==> r.bots == f.rows.value
    ensures f.Parsed? && f.rows.None? ==> r.bots == []
    ensures f.Rejected? ==> r.bots == p.bots
  {
    match f
    case Parsed(rows) => Page(rows.GetOr([]), false)
    case Rejected => Page(p.bots, false)
  }

  /** `fetchBots` starting. */
  function FetchStarted(p: Page): (r: Page)
    ensures r.loading && r.bots == p.bots
  {
    p.(loading := true)
  }

  /** How the toggle `fetch(..., { method: "POST" })` ends: any HTTP response, or a network failure. */
  datatype ToggleOutcome = Responded(status: int) | NetworkError

  /** The toggle's end: the page, whether the list was refetched, whether the error toast shows. */
  datatype ToggleEnd = ToggleEnd(page: Page, refetch: bool, errorToast: bool)

  /**
   * `toggleBotStatus`: `fetch` resolves on every HTTP status, so the list is
   * refetched whenever the server answered at all, even with an error status;
   * only a network failure shows the error toast.
   */
  function ToggleBotStatus(p: Page, outcome: ToggleOutcome): (r: ToggleEnd)
    ensures r.refetch <==> outcome.Responded?
    ensures r.errorToast <==> !r.refetch
    ensures r.refetch ==> r.page.loading && r.page.bots == p.bots
    ensures !r.refetch ==> r.page == p
  {
    match outcome
    case Responded(_) => ToggleEnd(FetchStarted(p), true, false)
    case NetworkError => ToggleEnd(p, false, true)
  }

  /** A refused toggle (say a 403) still reloads the list rather than reporting an error. */
  lemma ForbiddenToggleStillRefetches(p: Page)
    ensures ToggleBotStatus(p, Responded(403)).refetch
    ensures !ToggleBotStatus(p, Responded(403)).errorToast
  {
  }

  const FallbackIcon := "\U{1F916}"
  const FallbackGradient := "from-gray-400 to-gray-600"

  const Icons: map<string, string> := map[
    "discord" := "\U{1F3AE}",
    "telegram" := "\U{2708}\U{FE0F}",
    "slack" := "\U{1F4BC}",
    "whatsapp" := "\U{1F4AC}",
    "twitter" := "\U{1F426}"
  ]

  const Gradients: map<string, string> := map[
    "discord" := "from-indigo-400 to-indigo-600",
    "telegram" := "from-blue-400 to-blue-600",
    "slack" := "from-purple-400 to-purple-600",
    "whatsapp" := "from-green-400 to-green-600",
    "twitter" := "from-cyan-400 to-cyan-600"
  ]

  /** `getPlatformIcon`: an exact, case-sensitive lookup with the robot as fallback. */
  function PlatformIcon(platform: string): (r: string)
    ensures platform in Icons ==> r == Icons[platform]
    ensures platform !in Icons ==> r == FallbackIcon
  {
    if platform in Icons then Icons[platform] else FallbackIcon
  }

  /** `getPlatformGradient`: an exact, case-sensitive lookup with grey as fallback. */
  function PlatformGradient(platform: string): (r: string)
    ensures platform in Gradients ==> r == Gradients[platform]
    ensures platform !in Gradients ==> r == FallbackGradient
  {
    if platform in Gradients then Gradients[platform] else FallbackGradient
  }

  /** Both lookups know the same five platforms, so a platform has a colour exactly when it has an icon. */
  lemma IconAndGradientAgree(platform: string)
    ensures PlatformIcon(platform) == FallbackIcon <==> PlatformGradient(platform) == FallbackGradient
  {
    assert Icons.Keys == Gradients.Keys;
    if platform in Icons {
      assert Icons[platform] != FallbackIcon;
      assert Gradients[platform] != FallbackGradient;
    }
  }

  /**
   * Unlike the "My Bots" page, which lower-cases the platform first, the
   * dashboard falls back for a capitalised platform name.
   */
  lemma CapitalisedPlatformFallsBack()
    ensures PlatformIcon("Discord") == FallbackIcon
    ensures PlatformIcon("discord") == "\U{1F3AE}"
  {
  }

  /** One header card: its title, its figure, and its caption. */
  datatype Stat = Stat(title: string, value: string, change: string)

  /** The four header cards; the response time and captions other than the active ratio are fixed. */
  function Stats(bots: seq<Bot>): (r: seq<Stat>)
    ensures |r| == 4
    ensures r[0].value == NatToString(|bots|)
    ensures r[1].value == NatToString(ActiveCount(bots))
    ensures r[1].change == NatToString(ActiveCount(bots)) + "/" + NatToString(|bots|) + " online now"
    ensures r[2].value == IntToString(TotalUsers(bots))
    ensures r[3].value == "0.8s"
  {
    var active := ActiveCount(bots);
    [ Stat("Total Bots", NatToString(|bots|), "Your AI army grows"),
      Stat("Active Bots", NatToString(active), NatToString(active) + "/" + NatToString(|bots|) + " online now"),
      Stat("Total Users", IntToString(TotalUsers(bots)), "Across all platforms"),
      Stat("Avg Response Time", "0.8s", "Lightning fast AI") ]
  }

  /** The active ratio caption reads back to the two counts it was built from. */
  lemma ActiveRatioReadsBack(bots: seq<Bot>)
    ensures var c := Stats(bots)[1].change;
            var a := NatToString(ActiveCount(bots));
            c[..|a|] == a && c[|a|] == '/' && DigitsValue(a) == ActiveCount(bots)
  {
    NatToStringRoundTrip(ActiveCount(bots));
  }

  /** One row of the preview list. */
  datatype Row = Row(id: int, name: string, icon: string, gradient: string, online: bool, users: int)

  function RowOf(b: Bot): (r: Row)
    ensures r.id == b.id && r.name == b.name && r.users == UsersOf(b)
    ensures r.online <==> IsActive(b)
    ensures r.icon == PlatformIcon(b.platform) && r.gradient == PlatformGradient(b.platform)
  {
    Row(b.id, b.name, PlatformIcon(b.platform), PlatformGradient(b.platform), IsActive(b), UsersOf(b))
  }

  /** What the page shows: the spinner alone, or the header with the empty prompt or up to five rows. */
  datatype Screen = Spinner | EmptyArmy(stats: seq<Stat>) | Preview(stats: seq<Stat>, rows: seq<Row>)

  /** The rendered page: the first five bots, in list order, while the header counts all of them. */
  function Render(p: Page): (s: Screen)
    ensures s.Spinner? <==> p.loading
    ensures s.EmptyArmy? <==> !p.loading && p.bots == []
    ensures !s.Spinner? ==> s.stats == Stats(p.bots)
    ensures s.Preview? ==> 0 < |s.rows| <= 5 && |s.rows| == if |p.bots| < 5 then |p.bots| else 5
    ensures s.Preview? ==> forall i :: 0 <= i < |s.rows| && i < |p.bots| ==> s.rows[i] == RowOf(p.bots[i])
  {
    if p.loading then Spinner
    else if |p.bots| == 0 then EmptyArmy(Stats(p.bots))
    else
      var shown := if |p.bots| < 5 then |p.bots| else 5;
      Preview(Stats(p.bots), seq(shown, i requires 0 <= i < shown => RowOf(p.bots[i])))
  }

  /** A bot past the fifth is counted in the header but has no row. */
  lemma SixthBotCountedButHidden(p: Page)
    requires !p.loading && |p.bots| >= 6
    ensures var s := Render(p);
            s.Preview? && |s.rows| == 5 && s.stats[0].value == NatToString(|p.bots|)
            && forall i :: 0 <= i < |s.rows| ==> s.rows[i] == RowOf(p.bots[i])
  {
  }
}

=== FILE: doclabel.dfy ===
/**
 * `formatLabel`, which turns a documentation file name into its title:
 * underscores become spaces, one trailing ".md" is dropped, and every word
 * character that starts a word (`\b\w`) is upper-cased.
 */
module DocLabel {
  import opened Text

  /** Position `i` of `s` holds a word character with no word character before it. */
  predicate WordStart(s: string, i: int)
    requires 0 <= i < |s|
  {
    IsWordChar(s[i]) && (i == 0 || !IsWordChar(s[i - 1]))
  }

  /** `s.replace(/_/g, " ")`. */
  function ReplaceUnderscores(s: string): (r: string)
    ensures |r| == |s|
    ensures '_' !in r
    ensures forall i :: 0 <= i < |s| && s[i] != '_' ==> r[i] == s[i]
    ensures forall i :: 0 <= i < |s| && s[i] == '_' ==> r[i] == ' '
  {
    seq(|s|, i requires 0 <= i < |s| => if s[i] == '_' then ' ' else s[i])
  }

  /** `s.replace(/\.md$/, "")`: one ".md" at the very end is dropped. */
  function StripMd(s: string): (r: string)
    ensures EndsWith(s, ".md") ==> r + ".md" == s
    ensures !EndsWith(s, ".md") ==> r == s
  {
    if EndsWith(s, ".md") then s[..|s| - 3] else s
  }

  /**
   * `s.replace(/\b\w/g, l => l.toUpperCase())`: the result differs from `s`
   * only in case, only at word starts, and no word start is left lower-case.
   */
  function CapitalizeWords(s: string): (r: string)
    ensures |r| == |s|
    ensures forall i :: 0 <= i < |s| ==> LowerChar(r[i]) == LowerChar(s[i])
    ensures forall i :: 0 <= i < |s| ==> (IsWordChar(r[i]) <==> IsWordChar(s[i]))
    ensures forall i :: 0 <= i < |s| && WordStart(s, i) ==> !IsLower(r[i])
    ensures forall i :: 0 <= i < |s| && !WordStart(s, i) ==> r[i] == s[i]
  {
    seq(|s|, i requires 0 <= i < |s| => if WordStart(s, i) then UpperChar(s[i]) else s[i])
  }

  /**
   * `formatLabel`: the name with underscores as spaces and without a final
   * ".md", every word start upper-cased and every other character kept.
   */
  function FormatLabel(name: string): (r: string)
    ensures '_' !in r
    ensures |r| == if EndsWith(name, ".md") then |name| - 3 else |name|
    ensures forall i :: 0 <= i < |r| ==> LowerChar(r[i]) == LowerChar(if name[i] == '_' then ' ' else name[i])
    ensures forall i :: 0 <= i < |r| && WordStart(r, i) ==> !IsLower(r[i])
    ensures forall i :: 0 <= i < |r| && !WordStart(r, i) ==> r[i] == (if name[i] == '_' then ' ' else name[i])
  {
    var replaced := ReplaceUnderscores(name);
    assert EndsWith(replaced, ".md") <==> EndsWith(name, ".md") by {
      if |name| >= 3 {
        assert replaced[|name| - 3..] == ReplaceUnderscores(name[|name| - 3..]);
      }
    }
    var stripped := StripMd(replaced);
    var r := CapitalizeWords(stripped);
    assert forall i :: 0 <= i < |r| ==> (WordStart(r, i) <==> WordStart(stripped, i));
    r
  }

  /** No label ends in ".md": the "m" after a dot starts a word and is upper-cased. */
  lemma {:induction false} LabelNeverEndsWithMd(name: string)
    ensures !EndsWith(FormatLabel(name), ".md")
  {
    var stripped := StripMd(ReplaceUnderscores(name));
    var r := FormatLabel(name);
    var n := |r|;
    if n >= 3 && r[n - 3] == '.' {
      assert stripped[n - 3] == '.';
      if LowerChar(stripped[n - 2]) == 'm' {
        assert WordStart(stripped, n - 2);
      }
      assert r[n - 2] != 'm';
      assert r[n - 3..] != ".md";
    }
  }

  /** Capitalising twice is capitalising once. */
  lemma CapitalizeIdempotent(s: string)
    ensures CapitalizeWords(CapitalizeWords(s)) == CapitalizeWords(s)
  {
    var r := CapitalizeWords(s);
    assert forall i :: 0 <= i < |s| ==> (WordStart(r, i) <==> WordStart(s, i));
  }

  /** A label is its own label: formatting is idempotent. */
  lemma {:induction false} FormatLabelIdempotent(name: string)
    ensures FormatLabel(FormatLabel(name)) == FormatLabel(name)
  {
    var r := FormatLabel(name);
    LabelNeverEndsWithMd(name);
    assert ReplaceUnderscores(r) == r;
    assert StripMd(r) == r;
    assert r == CapitalizeWords(StripMd(ReplaceUnderscores(name)));
    CapitalizeIdempotent(StripMd(ReplaceUnderscores(name)));
  }
}

=== FILE: docs.dfy ===
/**
 * The developer documentation page: loading the file list and each file
 * (with per-file and whole-list fallbacks), remembering the last document,
 * the sidebar's sort and search, the current document, and the per-line
 * task-list checkboxes.
 */
module DocsPage {
  import opened Opt
  import opened Text
  import opened Lists
  import opened DocLabel

  datatype Doc = Doc(filename: string, content: string)

  /** The content shown for a file whose request failed. */
  function FallbackContent(filename: string): (c: string)
    ensures StartsWith(c, "# " + FormatLabel(filename))
    ensures EndsWith(c, "Could not load real content.")
  {
    var head := "# " + FormatLabel(filename);
    var c := head + "\n\n\U{26A0}\U{FE0F} Could not load real content.";
    assert c[..|head|] == head;
    c
  }

  /** The three placeholder documents installed when the list cannot be loaded. */
  const DummyDocs: seq<Doc> := [
    Doc("getting_started.md",
        "# Getting Started\n\nWelcome to the documentation.\n\n- [x] Placeholder checklist item\n- [ ] Another task here."),
    Doc("api_reference.md",
        "# API Reference\n\n```bash\ncurl https://api.example.com/v1/hello\n```\n\n> This is a mocked API reference."),
    Doc("faq.md",
        "# FAQ\n\n### Q: Is this real?\nA: No, this is just fallback content.\n\n### Q: Will it work with the backend later?\nA: Yes. Nothing to change.")
  ]

  datatype Page = Page(
    docs: seq<Doc>,
    loading: bool,
    activeTab: string,
    sidebarOpen: bool,
    checks: map<string, bool>,
    query: string,
    lastDoc: Option<string>)

  /** The effect on `activeTab`: a non-empty tab is written to storage as "lastDoc". */
  function Remember(p: Page): (r: Page)
    ensures p.activeTab != "" ==> r.lastDoc == Some(p.activeTab)
    ensures p.activeTab == "" ==> r.lastDoc == p.lastDoc
    ensures r.(lastDoc := p.lastDoc) == p
  {
    if p.activeTab != "" then p.(lastDoc := Some(p.activeTab)) else p
  }

  /**
   * First render and mount effects: loading, no documents, the sidebar open,
   * and the tab restored from a non-empty stored "lastDoc".
   */
  function Mount(stored: Option<string>): (p: Page)
    ensures p.loading && p.docs == [] && p.sidebarOpen && p.checks == map[] && p.query == ""
    ensures stored.Some? && stored.value != "" ==> p.activeTab == stored.value
    ensures !(stored.Some? && stored.value != "") ==> p.activeTab == ""
    ensures p.lastDoc == stored
  {
    var tab := if stored.Some? && stored.value != "" then stored.value else "";
    Page([], true, tab, true, map[], "", stored)
  }

  /** How one file request ends. */
  datatype FileReply = Content(text: string) | FileFailed

  /** How the list request ends: the listed file names, or any failure. */
  datatype ListReply = Files(names: seq<string>) | ListFailed

  /** One document per listed name, in list order, with the fallback content for a failed file. */
  function LoadedDocs(names: seq<string>, replies: seq<FileReply>): (docs: seq<Doc>)
    requires |replies| == |names|
    ensures |docs| == |names|
    ensures forall i :: 0 <= i < |names| ==> docs[i].filename == names[i]
    ensures forall i :: 0 <= i < |names| && replies[i].Content? ==> docs[i].content == replies[i].text
    ensures forall i :: 0 <= i < |names| && replies[i].FileFailed? ==> docs[i].content == FallbackContent(names[i])
  {
    seq(|names|, i requires 0 <= i < |names| =>
          Doc(names[i], if replies[i].Content? then replies[i].text else FallbackContent(names[i])))
  }

  /**
   * The fetch settling, as written: a loaded list makes its first file (in
   * the server's order) the active tab, and a failed list installs the
   * placeholders with the first of them active; either way a restored tab
   * is overwritten unless the list is empty.
   */
  function Loaded(p: Page, list: ListReply, replies: seq<FileReply>): (r: Page)
    requires list.Files? ==> |replies| == |list.names|
    ensures !r.loading && r.checks == p.checks && r.query == p.query && r.sidebarOpen == p.sidebarOpen
    ensures list.ListFailed? ==> r.docs == DummyDocs && r.activeTab == "getting_started.md"
    ensures list.Files? ==> r.docs == LoadedDocs(list.names, replies)
    ensures list.Files? && |list.names| > 0 ==> r.activeTab == list.names[0]
    ensures list.Files? && |list.names| == 0 ==> r.activeTab == p.activeTab
    ensures r.activeTab != "" ==> r.lastDoc == Some(r.activeTab)
  {
    match list
    case ListFailed => Remember(p.(docs := DummyDocs, loading := false, activeTab := "getting_started.md"))
    case Files(names) =>
      var docs := LoadedDocs(names, replies);
      var tab := if |names| > 0 then names[0] else p.activeTab;
      Remember(p.(docs := docs, loading := false, activeTab := tab))
  }

  /** A document named `tab` is among `docs`. */
  predicate Names(docs: seq<Doc>, tab: string) {
    exists i :: 0 <= i < |docs| && docs[i].filename == tab
  }

  /** As written, the remembered document is dropped even when it is loaded. */
  lemma RememberedDocOverwritten()
    ensures var r := Loaded(Mount(Some("faq.md")), Files(["api.md", "faq.md"]), [Content("a"), Content("b")]);
            Names(r.docs, "faq.md") && r.activeTab == "api.md"
  {
    var r := Loaded(Mount(Some("faq.md")), Files(["api.md", "faq.md"]), [Content("a"), Content("b")]);
    assert r.docs[1].filename == "faq.md";
  }

  /**
   * The corrected settling: a restored tab that names a loaded document is
   * kept; otherwise the first document becomes active, as written.
   */
  function LoadedIntended(p: Page, list: ListReply, replies: seq<FileReply>): (r: Page)
    requires list.Files? ==> |replies| == |list.names|
    ensures !r.loading && r.checks == p.checks && r.query == p.query && r.sidebarOpen == p.sidebarOpen
    ensures r.docs == Loaded(p, list, replies).docs
    ensures Names(r.docs, p.activeTab) ==> r.activeTab == p.activeTab
    ensures !Names(r.docs, p.activeTab) ==> r.activeTab == Loaded(p, list, replies).activeTab
    ensures |r.docs| > 0 ==> Names(r.docs, r.activeTab)
    ensures r.activeTab != "" ==> r.lastDoc == Some(r.activeTab)
  {
    var loaded := Loaded(p, list, replies);
    if Names(loaded.docs, p.activeTab) then Remember(loaded.(activeTab := p.activeTab))
    else
      assert |loaded.docs| > 0 ==> loaded.docs[0].filename == loaded.activeTab;
      loaded
  }

  /** Under the corrected settling the remembered document survives. */
  lemma RememberedDocKept()
    ensures LoadedIntended(Mount(Some("faq.md")), Files(["api.md", "faq.md"]), [Content("a"), Content("b")]).activeTab
            == "faq.md"
  {
    var r := Loaded(Mount(Some("faq.md")), Files(["api.md", "faq.md"]), [Content("a"), Content("b")]);
    assert r.docs[1].filename == "faq.md";
  }

  /** Clicking a sidebar entry: it becomes the active tab (and is remembered), and the sidebar closes. */
  function Select(p: Page, filename: string): (r: Page)
    ensures r.activeTab == filename && !r.sidebarOpen
    ensures filename != "" ==> r.lastDoc == Some(filename)
    ensures r.docs == p.docs && r.checks == p.checks && r.query == p.query
  {
    Remember(p.(activeTab := filename, sidebarOpen := false))
  }

  // Ordering

  /** `localeCompare` is modelled as an arbitrary total preorder on file names. */
  ghost predicate TotalPreorder(leq: (string, string) -> bool) {
    && (forall a, b :: leq(a, b) || leq(b, a))
    && (forall a, b, c :: leq(a, b) && leq(b, c) ==> leq(a, c))
  }

  predicate SortedBy(docs: seq<Doc>, leq: (string, string) -> bool) {
    forall i, j :: 0 <= i < j < |docs| ==> leq(docs[i].filename, docs[j].filename)
  }

  function Insert(d: Doc, s: seq<Doc>, leq: (string, string) -> bool): (r: seq<Doc>)
    requires TotalPreorder(leq) && SortedBy(s, leq)
    ensures SortedBy(r, leq)
    ensures multiset(r) == multiset(s) + multiset{d}
    decreases |s|
  {
    if |s| == 0 then [d]
    else if leq(d.filename, s[0].filename) then
      PrependSorted(d, s, leq);
      [d] + s
    else
      var rest := Insert(d, s[1..], leq);
      assert s == [s[0]] + s[1..];
      HeadBelowInserted(d, s, rest, leq);
      PrependSorted(s[0], rest, leq);
      [s[0]] + rest
  }

  /** Putting in front an element below every element keeps a list sorted. */
  lemma PrependSorted(x: Doc, t: seq<Doc>, leq: (string, string) -> bool)
    requires TotalPreorder(leq) && SortedBy(t, leq)
    requires |t| > 0 ==> leq(x.filename, t[0].filename)
    ensures SortedBy([x] + t, leq)
  {
    var r := [x] + t;
    forall i, j | 0 <= i < j < |r| ensures leq(r[i].filename, r[j].filename) {
      if i == 0 {
        assert r[j] == t[j - 1];
        if j > 1 {
          assert leq(t[0].filename, t[j - 1].filename);
        }
      } else {
        assert r[i] == t[i - 1] && r[j] == t[j - 1];
      }
    }
  }

  /** The head of a sorted list that `d` goes after is below everything `d` was inserted among. */
  lemma HeadBelowInserted(d: Doc, s: seq<Doc>, rest: seq<Doc>, leq: (string, string) -> bool)
    requires TotalPreorder(leq) && SortedBy(s, leq) && |s| > 0
    requires !leq(d.filename, s[0].filename)
    requires multiset(rest) == multiset(s[1..]) + multiset{d}
    ensures forall k :: 0 <= k < |rest| ==> leq(s[0].filename, rest[k].filename)
  {
    forall k | 0 <= k < |rest| ensures leq(s[0].filename, rest[k].filename) {
      assert rest[k] in multiset(rest);
      if rest[k] != d {
        assert rest[k] in multiset(s[1..]);
        var m :| 0 <= m < |s[1..]| && s[1..][m] == rest[k];
        assert s[m + 1] == rest[k];
      }
    }
  }

  /** `docs.sort((a, b) => a.filename.localeCompare(b.filename))`: sorted, and a permutation. */
  function Sort(docs: seq<Doc>, leq: (string, string) -> bool): (r: seq<Doc>)
    requires TotalPreorder(leq)
    ensures SortedBy(r, leq)
    ensures multiset(r) == multiset(docs)
    ensures |r| == |docs|
    decreases |docs|
  {
    if |docs| == 0 then []
    else
      var sorted := Sort(docs[1..], leq);
      assert docs == [docs[0]] + docs[1..];
      Insert(docs[0], sorted, leq)
  }

  // Search

  /** A document matches when its label or its content contains the query, ignoring case. */
  predicate Matches(d: Doc, query: string) {
    Includes(Lower(FormatLabel(d.filename)), Lower(query)) || Includes(Lower(d.content), Lower(query))
  }

  /** The sidebar's entries: the documents that match, in their order. */
  function Search(docs: seq<Doc>, query: string): (r: seq<Doc>)
    ensures forall d :: d in r <==> d in docs && Matches(d, query)
    ensures forall d {:trigger multiset(r)[d]} :: multiset(r)[d] == if Matches(d, query) then multiset(docs)[d] else 0
    ensures IsSubsequence(r, docs)
  {
    FilterIsSubsequence(docs, d => Matches(d, query));
    Filter(docs, d => Matches(d, query))
  }

  /** Searching two permutations of one list yields permutations of one result. */
  lemma SearchPermutes(a: seq<Doc>, b: seq<Doc>, query: string)
    requires multiset(a) == multiset(b)
    ensures multiset(Search(a, query)) == multiset(Search(b, query))
  {
    forall d ensures multiset(Search(a, query))[d] == multiset(Search(b, query))[d] {
    }
  }

  /** An empty query lists every document. */
  lemma EmptyQueryListsAll(docs: seq<Doc>)
    ensures Search(docs, "") == docs
  {
    forall d | d in docs ensures Matches(d, "") {
      IncludesEmpty(Lower(FormatLabel(d.filename)));
    }
    FilterKeepsAll(docs, d => Matches(d, ""));
  }

  /** The query's case is irrelevant. */
  lemma SearchIgnoresQueryCase(docs: seq<Doc>, query: string)
    ensures Search(docs, query) == Search(docs, Lower(query))
  {
    LowerIdempotent(query);
    FilterCongruent(docs, d => Matches(d, query), d => Matches(d, Lower(query)));
  }

  // The current document

  /** `docs.find(doc => doc.filename === activeTab)`. */
  function CurrentDoc(docs: seq<Doc>, tab: string): (r: Option<Doc>)
    ensures r.None? <==> !Names(docs, tab)
    ensures r.Some? ==> r.value in docs && r.value.filename == tab
    ensures r.Some? ==> exists i :: 0 <= i < |docs| && docs[i] == r.value
                                    && forall j :: 0 <= j < i ==> docs[j].filename != tab
    decreases |docs|
  {
    if |docs| == 0 then None
    else if docs[0].filename == tab then Some(docs[0])
    else
      var r := CurrentDoc(docs[1..], tab);
      assert Names(docs, tab) ==> Names(docs[1..], tab) by {
        if Names(docs, tab) {
          var i :| 0 <= i < |docs| && docs[i].filename == tab;
          assert docs[1..][i - 1].filename == tab;
        }
      }
      if r.Some? then
        ghost var i :| 0 <= i < |docs[1..]| && docs[1..][i] == r.value
                       && forall j :: 0 <= j < i ==> docs[1..][j].filename != tab;
        assert docs[i + 1] == r.value;
        r
      else r
  }

  // Task-list checkboxes

  /** A checkbox is keyed by its file and the line it starts on: `${filename}::${line}`. */
  function CheckboxId(filename: string, line: nat): string {
    filename + "::" + NatToString(line)
  }

  /** The text after the last ':'. */
  function AfterLastColon(x: string): (r: string)
    ensures ':' !in r
    decreases |x|
  {
    if |x| == 0 || x[|x| - 1] == ':' then "" else AfterLastColon(x[..|x| - 1]) + [x[|x| - 1]]
  }

  lemma {:induction false} AfterLastColonOf(prefix: string, s: string)
    requires ':' !in s
    ensures AfterLastColon(prefix + ":" + s) == s
    decreases |s|
  {
    if |s| > 0 {
      var x := prefix + ":" + s;
      assert x[..|x| - 1] == prefix + ":" + s[..|s| - 1];
      AfterLastColonOf(prefix, s[..|s| - 1]);
      assert s == s[..|s| - 1] + [s[|s| - 1]];
    }
  }

  /** Different boxes have different ids, whatever the file names contain. */
  lemma CheckboxIdInjective(f1: string, l1: nat, f2: string, l2: nat)
    requires CheckboxId(f1, l1) == CheckboxId(f2, l2)
    ensures f1 == f2 && l1 == l2
  {
    var s1, s2 := NatToString(l1), NatToString(l2);
    assert ':' !in s1 && ':' !in s2 by {
      assert forall i :: 0 <= i < |s1| ==> s1[i] != ':';
      assert forall i :: 0 <= i < |s2| ==> s2[i] != ':';
    }
    assert CheckboxId(f1, l1) == (f1 + ":") + ":" + s1;
    assert CheckboxId(f2, l2) == (f2 + ":") + ":" + s2;
    AfterLastColonOf(f1 + ":", s1);
    AfterLastColonOf(f2 + ":", s2);
    NatToStringRoundTrip(l1);
    NatToStringRoundTrip(l2);
    var x := CheckboxId(f1, l1);
    assert f1 == x[..|f1|];
    assert f2 == x[..|f2|];
  }

  /** `checkboxStates[id] ?? props.checked ?? false`. */
  function Checked(p: Page, id: string, markdownChecked: Option<bool>): (b: bool)
    ensures id in p.checks ==> b == p.checks[id]
    ensures id !in p.checks ==> b == (markdownChecked == Some(true))
  {
    if id in p.checks then p.checks[id] else markdownChecked.GetOr(false)
  }

  /** Ticking a box records it under its id. */
  function Tick(p: Page, id: string, checked: bool): (r: Page)
    ensures id in r.checks && r.checks[id] == checked
    ensures r.docs == p.docs && r.activeTab == p.activeTab && r.query == p.query
  {
    p.(checks := p.checks[id := checked])
  }

  /** Ticking one box leaves every other box, in this file or another, as it was. */
  lemma TickIsLocal(p: Page, f1: string, l1: nat, f2: string, l2: nat, checked: bool, markdownChecked: Option<bool>)
    requires f1 != f2 || l1 != l2
    ensures Checked(Tick(p, CheckboxId(f1, l1), checked), CheckboxId(f2, l2), markdownChecked)
            == Checked(p, CheckboxId(f2, l2), markdownChecked)
    ensures Checked(Tick(p, CheckboxId(f1, l1), checked), CheckboxId(f1, l1), markdownChecked) == checked
  {
    if CheckboxId(f1, l1) == CheckboxId(f2, l2) {
      CheckboxIdInjective(f1, l1, f2, l2);
    }
  }

  // Rendering

  /** "N document(s) available", singular only for exactly one. */
  function Footer(n: nat): (s: string)
    ensures StartsWith(s, NatToString(n))
    ensures n == 1 <==> EndsWith(s, " document available")
  {
    var head := NatToString(n);
    if n != 1 then
      var s := head + " documents available";
      assert s[..|head|] == head;
      assert s[|s| - 19] == 'd';
      s
    else
      var s := head + " document available";
      assert s[..|head|] == head;
      assert s[|s| - 19..] == " document available";
      s
  }

  /** What the page shows. */
  datatype View = Spinner | NoDocuments | Browser(sidebar: seq<Doc>, current: Option<Doc>, footer: string)

  /**
   * The render: documents are sorted by name first, the sidebar lists those
   * matching the query, and the current document is the first with the
   * active tab's name.
   */
  function Render(p: Page, leq: (string, string) -> bool): (v: View)
    requires TotalPreorder(leq)
    ensures v.Spinner? <==> p.loading
    ensures v.NoDocuments? <==> !p.loading && p.docs == []
    ensures v.Browser? ==> SortedBy(v.sidebar, leq)
    ensures v.Browser? ==> forall d :: d in v.sidebar <==> d in p.docs && Matches(d, p.query)
    ensures v.Browser? ==> multiset(v.sidebar) == multiset(Search(p.docs, p.query))
    ensures v.Browser? ==> (v.current.Some? <==> Names(p.docs, p.activeTab))
    ensures v.Browser? && v.current.Some? ==> v.current.value in p.docs && v.current.value.filename == p.activeTab
    ensures v.Browser? ==> v.footer == Footer(|p.docs|)
  {
    if p.loading then Spinner
    else if |p.docs| == 0 then NoDocuments
    else
      var sorted := Sort(p.docs, leq);
      SameElements(sorted, p.docs, p.activeTab);
      var sidebar := Search(sorted, p.query);
      SubsequenceSorted(sidebar, sorted, leq);
      SearchPermutes(sorted, p.docs, p.query);
      var current := CurrentDoc(sorted, p.activeTab);
      Browser(sidebar, current, Footer(|p.docs|))
  }

  /** Two lists with the same elements, counted, have the same members and name the same files. */
  lemma SameElements(a: seq<Doc>, b: seq<Doc>, tab: string)
    requires multiset(a) == multiset(b)
    ensures forall d :: d in a <==> d in b
    ensures Names(a, tab) <==> Names(b, tab)
  {
    forall d ensures d in a <==> d in b {
      assert d in a <==> d in multiset(a);
      assert d in b <==> d in multiset(b);
    }
    if Names(b, tab) {
      var i :| 0 <= i < |b| && b[i].filename == tab;
      assert b[i] in a;
      var j :| 0 <= j < |a| && a[j] == b[i];
    }
    if Names(a, tab) {
      var i :| 0 <= i < |a| && a[i].filename == tab;
      assert a[i] in b;
      var j :| 0 <= j < |b| && b[j] == a[i];
    }
  }

  /** Picking a listed document shows that document's file. */
  lemma SelectShowsDocument(p: Page, d: Doc, leq: (string, string) -> bool)
    requires TotalPreorder(leq) && !p.loading && d in p.docs
    ensures var v := Render(Select(p, d.filename), leq);
            v.Browser? && v.current.Some? && v.current.value.filename == d.filename
  {
    var i :| 0 <= i < |p.docs| && p.docs[i] == d;
    assert Names(p.docs, d.filename);
  }

  /** Dropping elements of a sorted list keeps it sorted. */
  lemma {:induction false} SubsequenceSorted(a: seq<Doc>, b: seq<Doc>, leq: (string, string) -> bool)
    requires IsSubsequence(a, b) && SortedBy(b, leq)
    ensures SortedBy(a, leq)
    decreases |b|
  {
    if |a| > 0 {
      assert |b| > 0;
      assert SortedBy(b[1..], leq);
      if a[0] == b[0] && IsSubsequence(a[1..], b[1..]) {
        SubsequenceSorted(a[1..], b[1..], leq);
        SubsequenceMembers(a[1..], b[1..]);
        forall i, j | 0 <= i < j < |a| ensures leq(a[i].filename, a[j].filename) {
          assert a[j] == a[1..][j - 1];
          if i == 0 {
            assert a[j] in a[1..];
            var k :| 0 <= k < |b[1..]| && b[1..][k] == a[j];
            assert b[k + 1] == a[j];
          } else {
            assert a[i] == a[1..][i - 1];
          }
        }
      } else {
        SubsequenceSorted(a, b[1..], leq);
      }
    }
  }

  /** Every element of a subsequence is an element of the sequence. */
  lemma {:induction false} SubsequenceMembers<T>(a: seq<T>, b: seq<T>)
    requires IsSubsequence(a, b)
    ensures forall x :: x in a ==> exists k :: 0 <= k < |b| && b[k] == x
    decreases |b|
  {
    if |a| > 0 {
      if a[0] == b[0] && IsSubsequence(a[1..], b[1..]) {
        SubsequenceMembers(a[1..], b[1..]);
        forall x | x in a ensures exists k :: 0 <= k < |b| && b[k] == x {
          if x != a[0] {
            assert x in a[1..];
            var k :| 0 <= k < |b[1..]| && b[1..][k] == x;
            assert b[k + 1] == x;
          } else {
            assert b[0] == x;
          }
        }
      } else {
        SubsequenceMembers(a, b[1..]);
        forall x | x in a ensures exists k :: 0 <= k < |b| && b[k] == x {
          var k :| 0 <= k < |b[1..]| && b[1..][k] == x;
          assert b[k + 1] == x;
        }
      }
    }
  }
}

=== FILE: fleet.dfy ===
/**
 * The bot records the dashboard pages list, and the aggregates both pages
 * show: how many bots are active and how many users they serve in total.
 */
module Fleet {
  import opened Opt
  import opened Lists

  /** `BotData`; a missing `users_count` is `None`. */
  datatype Bot = Bot(id: int, name: string, platform: string, status: string, usersCount: Option<int>)

  predicate IsActive(b: Bot) { b.status == "active" }

  /** `bots.filter(b => b.status === "active").length`. */
  function ActiveCount(bots: seq<Bot>): (n: nat)
    ensures n <= |bots|
    ensures n == |bots| <==> forall b :: b in bots ==> IsActive(b)
    ensures n == 0 <==> forall b :: b in bots ==> !IsActive(b)
  {
    FilterFull(bots, IsActive);
    var active := Filter(bots, IsActive);
    assert |active| > 0 ==> active[0] in active;
    |active|
  }

  /** An independent count: one for every active bot, position by position. */
  function ActiveTally(bots: seq<Bot>): nat
    decreases |bots|
  {
    if |bots| == 0 then 0 else (if IsActive(bots[0]) then 1 else 0) + ActiveTally(bots[1..])
  }

  lemma {:induction false} ActiveCountIsTally(bots: seq<Bot>)
    ensures ActiveCount(bots) == ActiveTally(bots)
    decreases |bots|
  {
    if |bots| > 0 {
      ActiveCountIsTally(bots[1..]);
      FilterAppend([bots[0]], bots[1..], IsActive);
      assert [bots[0]] + bots[1..] == bots;
      assert Filter([bots[0]], IsActive) == (if IsActive(bots[0]) then [bots[0]] else []);
    }
  }

  /** `bot.users_count || 0`. */
  function UsersOf(b: Bot): int {
    b.usersCount.GetOr(0)
  }

  /** `bots.reduce((sum, bot) => sum + (bot.users_count || 0), 0)`, a left fold. */
  function TotalUsers(bots: seq<Bot>): (r: int)
    ensures (forall b :: b in bots ==> UsersOf(b) >= 0) ==> r >= 0
    ensures (forall b :: b in bots ==> b.usersCount.None?) ==> r == 0
    decreases |bots|
  {
    if |bots| == 0 then 0
    else
      assert forall b :: b in bots[..|bots| - 1] ==> b in bots;
      TotalUsers(bots[..|bots| - 1]) + UsersOf(bots[|bots| - 1])
  }

  /** A one-bot list totals that bot's count, a missing count as zero. */
  lemma TotalUsersSingle(b: Bot)
    ensures TotalUsers([b]) == UsersOf(b)
    ensures b.usersCount.Some? ==> TotalUsers([b]) == b.usersCount.value
  {
    assert [b][..0] == [];
  }

  /** The same total, summed from the front: an independent reference for the fold. */
  function UsersSum(bots: seq<Bot>): int
    decreases |bots|
  {
    if |bots| == 0 then 0 else UsersOf(bots[0]) + UsersSum(bots[1..])
  }

  /** The fold of `reduce` equals the front-to-back sum on every list. */
  lemma {:induction false} TotalUsersIsSum(bots: seq<Bot>)
    ensures TotalUsers(bots) == UsersSum(bots)
    decreases |bots|
  {
    if |bots| > 0 {
      TotalUsersIsSum(bots[1..]);
      TotalUsersAppend([bots[0]], bots[1..]);
      TotalUsersSingle(bots[0]);
      assert [bots[0]] + bots[1..] == bots;
    }
  }

  /** The total splits over any division of the list. */
  lemma {:induction false} TotalUsersAppend(a: seq<Bot>, b: seq<Bot>)
    ensures TotalUsers(a + b) == TotalUsers(a) + TotalUsers(b)
    decreases |b|
  {
    if |b| > 0 {
      TotalUsersAppend(a, b[..|b| - 1]);
      assert (a + b)[..|a + b| - 1] == a + b[..|b| - 1];
    } else {
      assert a + b == a;
    }
  }
}

=== FILE: flows.dfy ===
/**
 * Whole-application consequences that cross components: a page load restores
 * what sign-in persisted, and a 401 from a request made through the shared
 * axios instance signs the browser out for every guarded page after the
 * redirect it forces.
 */
module Flows {
  import opened Opt
  import opened Text
  import opened Identity
  import opened Http
  import opened Session
  import opened Guards

  /** The CSRF fetch of a page load is refused with a 401 (it is not made in fake-auth mode). */
  predicate CsrfRefused(fakeAuth: bool, csrf: Option<HttpError>) {
    !fakeAuth && csrf.Some? && Unauthorized(csrf.value)
  }

  /**
   * A full page load: mount the provider, restore, and (outside fake-auth mode)
   * settle the CSRF fetch. A 401 on that fetch removes "user" from storage, so
   * the /login load it forces starts signed out.
   */
  function Reload(storage: Storage, fakeAuth: bool, csrf: Option<HttpError>): (s: State)
    ensures !s.loading
    ensures s.storage == if CsrfRefused(fakeAuth, csrf) then RemoveKey(storage, UserKey) else storage
    ensures s.user == StoredUser(storage)
    ensures s.isAuthenticated <==> StoredUser(storage).Some?
    ensures CsrfRefused(fakeAuth, csrf) ==> StoredUser(s.storage).None?
  {
    var booted := Bootstrap(Mount(storage), fakeAuth);
    if fakeAuth then booted else CsrfSettled(booted, csrf)
  }

  /**
   * What sign-in persisted comes back on the next page load: same user, signed
   * in, dashboard admitted. It survives that load only: when the load's CSRF
   * fetch is refused with a 401, the /login load that follows is signed out.
   */
  lemma SignInSurvivesReload(s: State, email: string, password: string, post: Reply<LoginReply>,
                             reloadFake: bool, csrf: Option<HttpError>, csrfAgain: Option<HttpError>)
    requires Login(s, false, email, password, None, post).outcome.LoggedIn?
    ensures var r := Login(s, false, email, password, None, post).state;
            var t := Reload(r.storage, reloadFake, csrf);
            && t.user == r.user && t.isAuthenticated && Render(t, ["dashboard"]) == Children
            && (!CsrfRefused(reloadFake, csrf) ==> Persisted(t))
            && (CsrfRefused(reloadFake, csrf) ==> !Reload(t.storage, reloadFake, csrfAgain).isAuthenticated)
  {
    assert Lower("dashboard") == "dashboard";
  }

  /**
   * After the interceptor handles a 401, the page it forces loads signed out:
   * every guarded page redirects to /login, /dev-docs to /dashboard, and every
   * unguarded page, /login among them, renders.
   */
  lemma UnauthorizedSignsOutOfGuardedPages<T>(w: Window, reply: Reply<T>, fakeAuth: bool, csrf: Option<HttpError>,
                                          path: seq<string>)
    requires IsUnauthorized(reply)
    ensures var after := Intercept(w, reply).window;
            var t := Reload(after.storage, fakeAuth, csrf);
            && after.location == "/login"
            && !t.isAuthenticated && t.user.None?
            && (Resolve(path).1.Protected? ==> Render(t, path) == Navigate("/login", true))
            && (Resolve(path).1 == AdminOrDev ==> Render(t, path) == Navigate("/dashboard", false))
            && (Resolve(path).1 == Open ==> Render(t, path) == Children)
  {
  }

  /** The page the interceptor sends the browser to is never guarded. */
  lemma LoginPageIsOpen()
    ensures Resolve(["login"]) == (LoginScreen, Open)
  {
    assert Lower("login") == "login";
  }

  /** Signing out and reloading is the same as reloading a browser that never stored a user. */
  lemma LogoutThenReload(s: State, fakeAuth: bool, csrf: Option<HttpError>)
    ensures Reload(Logout(s).storage, fakeAuth, csrf).user.None?
    ensures !Reload(Logout(s).storage, fakeAuth, csrf).isAuthenticated
  {
  }
}

=== FILE: guards.dfy ===
/**
 * Route protection: the `ProtectedRoute` decision, the `RequireAdminOrDev`
 * wrapper, and the application's route table saying which guard wraps which page.
 */
module Guards {
  import opened Text
  import opened Session

  /** What a guard renders: the loading skeleton, a `<Navigate>`, or its children. */
  datatype View = Skeleton | Navigate(to: string, replace: bool) | Children

  /**
   * `ProtectedRoute`: loading shows the skeleton; a signed-out visitor is sent to
   * /login; a non-admin on an admin-only route is sent to /dashboard; both
   * redirects replace the history entry.
   */
  function ProtectedRoute(loading: bool, isAuthenticated: bool, isAdmin: bool, adminOnly: bool): (v: View)
    ensures v == Skeleton <==> loading
    ensures v == Navigate("/login", true) <==> !loading && !isAuthenticated
    ensures v == Navigate("/dashboard", true) <==> !loading && isAuthenticated && adminOnly && !isAdmin
    ensures v == Children <==> !loading && isAuthenticated && (!adminOnly || isAdmin)
  {
    if loading then Skeleton
    else if !isAuthenticated then Navigate("/login", true)
    else if adminOnly && !isAdmin then Navigate("/dashboard", true)
    else Children
  }

  /** The guard as mounted: it reads `loading`, `isAuthenticated` and `isAdmin()` from the session. */
  function Guard(s: State, adminOnly: bool): View {
    ProtectedRoute(s.loading, s.isAuthenticated, IsAdmin(s), adminOnly)
  }

  /** The four outcomes, tabulated over every combination of the inputs. */
  function GuardTable(loading: bool, isAuthenticated: bool, isAdmin: bool, adminOnly: bool): View {
    match (loading, isAuthenticated, adminOnly, isAdmin)
    case (true, _, _, _) => Skeleton
    case (false, false, _, _) => Navigate("/login", true)
    case (false, true, false, _) => Children
    case (false, true, true, true) => Children
    case (false, true, true, false) => Navigate("/dashboard", true)
  }

  /** The guard agrees with the table on every combination, and yields exactly one of the four views. */
  lemma ProtectedRouteMatchesTable(loading: bool, isAuthenticated: bool, isAdmin: bool, adminOnly: bool)
    ensures ProtectedRoute(loading, isAuthenticated, isAdmin, adminOnly)
         == GuardTable(loading, isAuthenticated, isAdmin, adminOnly)
    ensures ProtectedRoute(loading, isAuthenticated, isAdmin, adminOnly)
              in {Skeleton, Navigate("/login", true), Navigate("/dashboard", true), Children}
  {
  }

  /** Whatever an admin-only guard admits, the plain guard admits too. */
  lemma AdminOnlyIsStricter(s: State)
    ensures Guard(s, true) == Children ==> Guard(s, false) == Children
    ensures !s.loading && s.isAuthenticated ==> Guard(s, false) == Children
  {
  }

  /** `RequireAdminOrDev`: children for an admin user, otherwise a plain (non-replacing) redirect to /dashboard. */
  function RequireAdminOrDev(s: State): (v: View)
    ensures v == Children <==> IsAdmin(s)
    ensures v != Children ==> v == Navigate("/dashboard", false)
  {
    if s.user.None? || s.user.value.role != Identity.AdminRole then Navigate("/dashboard", false) else Children
  }

  /**
   * The wrapper ignores `loading` and `isAuthenticated`: a restored admin record
   * is admitted while the session is still loading, where the admin-only guard shows the skeleton.
   */
  lemma RequireAdminOrDevIgnoresLoading(s: State)
    requires IsAdmin(s) && s.loading
    ensures RequireAdminOrDev(s) == Children
    ensures Guard(s, true) == Skeleton
  {
  }

  /** Once loaded and consistent, the wrapper and the admin-only guard admit the same sessions. */
  lemma RequireAdminOrDevAgreesOnceLoaded(s: State)
    requires !s.loading && Consistent(s)
    ensures RequireAdminOrDev(s) == Children <==> Guard(s, true) == Children
  {
  }

  /** How a route is wrapped. */
  datatype Wrapper = Open | Protected(adminOnly: bool) | AdminOrDev

  datatype Screen =
    | Home | Features | Pricing | Blog | Demo | Contact | LoginScreen | SignupScreen | Terms | Privacy
    | DevDocs
    | DashboardHome | MyBots | BotConfig(id: string) | Analytics | Messages | Settings | Billing
    | AdminPanel | AdminUsers | SystemStats | SystemLogs
    | NotFound

  /** The top-level public pages, by their single path segment. */
  function PublicScreen(seg: string): Screen {
    match seg
    case "features" => Features
    case "pricing" => Pricing
    case "blog" => Blog
    case "demo" => Demo
    case "contact" => Contact
    case "login" => LoginScreen
    case "signup" => SignupScreen
    case "terms" => Terms
    case "privacy" => Privacy
    case _ => NotFound
  }

  function DashboardChild(rest: seq<string>): Screen {
    if |rest| == 0 then DashboardHome
    else if |rest| == 1 then
      match Lower(rest[0])
      case "bots" => MyBots
      case "analytics" => Analytics
      case "messages" => Messages
      case "settings" => Settings
      case "billing" => Billing
      case _ => NotFound
    else if |rest| == 2 && Lower(rest[0]) == "bot-config" && rest[1] != "" then BotConfig(rest[1])
    else NotFound
  }

  function AdminChild(rest: seq<string>): Screen {
    if |rest| == 0 then AdminPanel
    else if |rest| == 1 then
      match Lower(rest[0])
      case "users" => AdminUsers
      case "stats" => SystemStats
      case "logs" => SystemLogs
      case _ => NotFound
    else NotFound
  }

  /** The marketing and sign-in pages and the catch-all, none of which is guarded. */
  predicate IsPublic(sc: Screen) {
    sc in {Home, Features, Pricing, Blog, Demo, Contact, LoginScreen, SignupScreen, Terms, Privacy, NotFound}
  }

  /**
   * The route table, for a path given as its segments: matching ignores ASCII
   * case, and anything unmatched falls to the unguarded catch-all.
   */
  function Resolve(path: seq<string>): (Screen, Wrapper) {
    if |path| == 0 then (Home, Open)
    else
      var head := Lower(path[0]);
      if head == "dashboard" && DashboardChild(path[1..]) != NotFound then (DashboardChild(path[1..]), Protected(false))
      else if head == "admin" && AdminChild(path[1..]) != NotFound then (AdminChild(path[1..]), Protected(true))
      else if |path| == 1 && head == "dev-docs" then (DevDocs, AdminOrDev)
      else if |path| == 1 then (PublicScreen(head), Open)
      else (NotFound, Open)
  }

  /** Which guard wraps which page: the dashboard subtree plainly, the admin subtree admin-only, /dev-docs alone by the admin wrapper. */
  lemma RouteWrappers(path: seq<string>)
    ensures Resolve(path).1 == AdminOrDev <==> |path| == 1 && Lower(path[0]) == "dev-docs"
    ensures Resolve(path).1 == Protected(false) <==>
              |path| > 0 && Lower(path[0]) == "dashboard" && DashboardChild(path[1..]) != NotFound
    ensures Resolve(path).1 == Protected(true) <==>
              |path| > 0 && Lower(path[0]) == "admin" && AdminChild(path[1..]) != NotFound
    ensures IsPublic(Resolve(path).0) ==> Resolve(path).1 == Open
  {
  }

  /** What the router renders for a path in a given session. */
  function Render(s: State, path: seq<string>): (v: View)
    ensures Resolve(path).1 == Open ==> v == Children
    ensures v == Children && Resolve(path).1.Protected? ==> !s.loading && s.isAuthenticated
    ensures v == Children && (Resolve(path).1 == Protected(true) || Resolve(path).1 == AdminOrDev) ==> IsAdmin(s)
    ensures Resolve(path).1.Protected? && s.loading ==> v == Skeleton
    ensures Resolve(path).1.Protected? && !s.loading && !s.isAuthenticated ==> v == Navigate("/login", true)
    ensures Resolve(path).1 == AdminOrDev && !IsAdmin(s) ==> v == Navigate("/dashboard", false)
    ensures (Resolve(path).1.Protected? && !s.loading && s.isAuthenticated
             && (!Resolve(path).1.adminOnly || IsAdmin(s))) ==> v == Children
    ensures (Resolve(path).1 == Protected(true) && !s.loading && s.isAuthenticated && !IsAdmin(s))
            ==> v == Navigate("/dashboard", true)
    ensures Resolve(path).1 == AdminOrDev && IsAdmin(s) ==> v == Children
  {
    match Resolve(path).1
    case Open => Children
    case Protected(adminOnly) => Guard(s, adminOnly)
    case AdminOrDev => RequireAdminOrDev(s)
  }
}

=== FILE: http.dfy ===
/**
 * The shared axios instance: its defaults, the shape of a settled request, and
 * the response interceptor that tears the session down on HTTP 401.
 */
module Http {
  import opened Opt
  import opened JsValue
  import opened Identity

  const DefaultBaseUrl := "http://localhost:8000"

  /** Every request carries the browser's cookies. */
  const WithCredentials := true

  /** `import.meta.env.VITE_API_URL || "http://localhost:8000"`: an unset or empty setting falls back. */
  function BaseUrl(configured: Option<string>): (r: string)
    ensures configured.Some? && configured.value != "" ==> r == configured.value
    ensures configured.None? || configured.value == "" ==> r == DefaultBaseUrl
  {
    if configured.Some? && configured.value != "" then configured.value else DefaultBaseUrl
  }

  /** The `response` of a failed request: status code and parsed body. */
  datatype ErrorResponse = ErrorResponse(status: int, data: Value)

  /** A rejected request: `error.response` (absent on network failure) and `error.message`. */
  datatype HttpError = HttpError(response: Option<ErrorResponse>, message: string)

  /** How a request settles. */
  datatype Reply<T> = Success(value: T) | Failure(error: HttpError)

  /** `error?.response?.data`. */
  function ErrorData(e: HttpError): (r: Value)
    ensures e.response.None? ==> r == Undefined
    ensures e.response.Some? ==> r == e.response.value.data
  {
    match e.response
    case None => Undefined
    case Some(resp) => resp.data
  }

  /** `error?.response?.data?.detail`. */
  function Detail(e: HttpError): Value {
    Get(ErrorData(e), "detail")
  }

  /** The rejection carries an HTTP 401 response. */
  predicate Unauthorized(e: HttpError) {
    e.response.Some? && e.response.value.status == 401
  }

  predicate IsUnauthorized<T>(reply: Reply<T>) {
    reply.Failure? && Unauthorized(reply.error)
  }

  /**
   * The browser storage once the interceptor has seen the rejection `e` of a
   * request made through the shared instance: a 401 removes "user".
   */
  function StorageAfter(storage: Storage, e: HttpError): (r: Storage)
    ensures r == Intercept(Window(storage, ""), Reply<()>.Failure(e)).window.storage
    ensures Unauthorized(e) ==> UserKey !in r
    ensures !Unauthorized(e) ==> r == storage
    ensures forall k :: k != UserKey ==> (k in r <==> k in storage)
    ensures forall k :: k != UserKey && k in storage ==> r[k] == storage[k]
  {
    if Unauthorized(e) then RemoveKey(storage, UserKey) else storage
  }

  /** The parts of the browser the interceptor touches. */
  datatype Window = Window(storage: Storage, location: string)

  /** The interceptor's result: the reply handed on, the window after it, and whether it showed "Session expired". */
  datatype Intercepted<T> = Intercepted(reply: Reply<T>, window: Window, expiredNotice: bool)

  /**
   * The response interceptor. Successes pass through; every failure is re-rejected
   * with the same error; a 401 additionally removes "user" and sends the browser to "/login".
   */
  function Intercept<T>(w: Window, reply: Reply<T>): (r: Intercepted<T>)
    ensures r.reply == reply
    ensures r.expiredNotice <==> IsUnauthorized(reply)
    ensures IsUnauthorized(reply) ==>
              r.window.storage == RemoveKey(w.storage, UserKey) && r.window.location == "/login"
    ensures !IsUnauthorized(reply) ==> r.window == w
  {
    if IsUnauthorized(reply) then
      Intercepted(reply, Window(RemoveKey(w.storage, UserKey), "/login"), true)
    else
      Intercepted(reply, w, false)
  }

  /** A 401 touches only the "user" key: every other stored entry survives unchanged. */
  lemma InterceptKeepsOtherKeys<T>(w: Window, reply: Reply<T>, k: string)
    requires k != UserKey && k in w.storage
    ensures k in Intercept(w, reply).window.storage
    ensures Intercept(w, reply).window.storage[k] == w.storage[k]
  {
  }

  /** Handling the same 401 twice leaves the browser as handling it once. */
  lemma InterceptIdempotent<T>(w: Window, reply: Reply<T>)
    ensures Intercept(Intercept(w, reply).window, reply) == Intercept(w, reply)
  {
  }
}

=== FILE: identity.dfy ===
/**
 * The signed-in user record and the browser's origin-scoped key/value storage
 * (`localStorage`) in which the record is persisted under the key "user".
 */
module Identity {
  import opened Opt

  datatype Role = UserRole | AdminRole

  /** The `User` interface of the authentication context. */
  datatype User = User(
    username: string,
    id: string,
    email: string,
    role: Role,
    name: string,
    subscription: Option<string>)

  /**
   * A stored value. A record the app writes with `JSON.stringify` reads back
   * with `JSON.parse` as the same record, so it is kept as the record itself;
   * any other text is `Text`.
   */
  datatype Entry = UserRecord(user: User) | Text(text: string)

  type Storage = map<string, Entry>

  const UserKey := "user"

  /** The record persisted under "user", if there is one. */
  function StoredUser(storage: Storage): (r: Option<User>)
    ensures r.Some? <==> UserKey in storage && storage[UserKey].UserRecord?
    ensures r.Some? ==> storage[UserKey] == UserRecord(r.value)
  {
    if UserKey in storage && storage[UserKey].UserRecord? then Some(storage[UserKey].user) else None
  }

  /** `localStorage.removeItem(key)`. */
  function RemoveKey(storage: Storage, key: string): (r: Storage)
    ensures key !in r
    ensures forall k :: k != key ==> (k in r <==> k in storage)
    ensures forall k :: k in r ==> r[k] == storage[k]
  {
    storage - {key}
  }
}

=== FILE: jsvalue.dfy ===
/**
 * Untyped JSON-like values as the front end sees response bodies
 * (`err.response.data`), with the JavaScript operators its error handling
 * is written in: truthiness and `||`, optional chaining `?.`, and `String(x)`.
 * Numbers are restricted to integers.
 */
module JsValue {
  import opened Text

  datatype Value =
    | Undefined
    | Null
    | Bool(b: bool)
    | Num(n: int)
    | Str(s: string)
    | Arr(items: seq<Value>)
    | Obj(fields: map<string, Value>)

  predicate Nullish(v: Value) { v.Undefined? || v.Null? }

  /** ToBoolean: `undefined`, `null`, `false`, `0` and `""` are the falsy values. */
  predicate Truthy(v: Value) {
    match v
    case Undefined => false
    case Null => false
    case Bool(b) => b
    case Num(n) => n != 0
    case Str(s) => s != ""
    case Arr(_) => true
    case Obj(_) => true
  }

  /** `a || b`: the first operand when it is truthy, the second otherwise. */
  function Or(a: Value, b: Value): (r: Value)
    ensures Truthy(r) <==> Truthy(a) || Truthy(b)
    ensures Truthy(a) ==> r == a
    ensures !Truthy(a) ==> r == b
  {
    if Truthy(a) then a else b
  }

  /**
   * `v?.key`: `undefined` when `v` is nullish, is not an object, or lacks the key.
   * Properties that primitives and arrays inherit (`length`, methods) are not modelled.
   */
  function Get(v: Value, key: string): (r: Value)
    ensures v.Obj? && key in v.fields ==> r == v.fields[key]
    ensures !(v.Obj? && key in v.fields) ==> r == Undefined
  {
    if v.Obj? && key in v.fields then v.fields[key] else Undefined
  }

  /** `String(v)`, which is also what a template literal inserts. */
  function ToStr(v: Value): string {
    match v
    case Undefined => "undefined"
    case Null => "null"
    case Bool(b) => if b then "true" else "false"
    case Num(n) => IntToString(n)
    case Str(s) => s
    case Arr(items) =>
      Join(seq(|items|, i requires 0 <= i < |items| =>
                 if Nullish(items[i]) then "" else ToStr(items[i])), ",")
    case Obj(_) => "[object Object]"
  }

  /** `items.join(sep)`: nullish elements become empty strings, others `String(x)`. */
  function ArrayJoin(items: seq<Value>, sep: string): string {
    Join(seq(|items|, i requires 0 <= i < |items| =>
               if Nullish(items[i]) then "" else ToStr(items[i])), sep)
  }

  /** An array converts to a string as its comma join. */
  lemma ArrayToStr(items: seq<Value>)
    ensures ToStr(Arr(items)) == ArrayJoin(items, ",")
  {
  }

  /** Joining an array of strings joins the strings themselves. */
  lemma {:induction false} ArrayJoinStrings(parts: seq<string>, sep: string)
    ensures ArrayJoin(seq(|parts|, i requires 0 <= i < |parts| => Str(parts[i])), sep) == Join(parts, sep)
  {
    var items := seq(|parts|, i requires 0 <= i < |parts| => Str(parts[i]));
    assert seq(|items|, i requires 0 <= i < |items| =>
                 if Nullish(items[i]) then "" else ToStr(items[i])) == parts;
  }
}

=== FILE: lists.dfy ===
/**
 * `Array.prototype.filter` and the order-preservation fact every list filter of
 * the front end relies on.
 */
module Lists {

  /** `s.filter(p)`. */
  function Filter<T(==)>(s: seq<T>, p: T -> bool): (r: seq<T>)
    ensures |r| <= |s|
    ensures forall x :: x in r ==> x in s && p(x)
    ensures forall x :: x in s && p(x) ==> x in r
    ensures forall x {:trigger multiset(r)[x]} :: x in s ==> multiset(r)[x] == if p(x) then multiset(s)[x] else 0
    decreases |s|
  {
    if |s| == 0 then []
    else
      assert s == [s[0]] + s[1..];
      (if p(s[0]) then [s[0]] else []) + Filter(s[1..], p)
  }

  /** `a` can be obtained from `b` by deleting elements: same elements, same relative order. */
  predicate IsSubsequence<T(==)>(a: seq<T>, b: seq<T>)
    decreases |b|
  {
    |a| == 0 ||
    (|b| > 0 && ((a[0] == b[0] && IsSubsequence(a[1..], b[1..])) || IsSubsequence(a, b[1..])))
  }

  /** Filtering keeps the survivors in their original order. */
  lemma {:induction false} FilterIsSubsequence<T>(s: seq<T>, p: T -> bool)
    ensures IsSubsequence(Filter(s, p), s)
    decreases |s|
  {
    if |s| > 0 {
      FilterIsSubsequence(s[1..], p);
      var rest := Filter(s[1..], p);
      if p(s[0]) {
        assert Filter(s, p) == [s[0]] + rest;
        assert ([s[0]] + rest)[1..] == rest;
      } else {
        assert Filter(s, p) == rest;
        if |rest| > 0 {
          assert IsSubsequence(rest, s[1..]);
        }
      }
    }
  }

  /** A predicate every element satisfies keeps the whole list, unchanged. */
  lemma {:induction false} FilterKeepsAll<T>(s: seq<T>, p: T -> bool)
    requires forall x :: x in s ==> p(x)
    ensures Filter(s, p) == s
    decreases |s|
  {
    if |s| > 0 {
      FilterKeepsAll(s[1..], p);
      assert [s[0]] + s[1..] == s;
    }
  }

  /** Nothing is dropped exactly when every element passes. */
  lemma {:induction false} FilterFull<T>(s: seq<T>, p: T -> bool)
    ensures |Filter(s, p)| == |s| <==> forall x :: x in s ==> p(x)
    decreases |s|
  {
    if |s| > 0 {
      FilterFull(s[1..], p);
      if |Filter(s, p)| == |s| {
        assert p(s[0]);
        forall x | x in s ensures p(x) {
          if x != s[0] {
            assert x in s[1..];
          }
        }
      }
    }
  }

  /** Filtering distributes over concatenation. */
  lemma {:induction false} FilterAppend<T>(a: seq<T>, b: seq<T>, p: T -> bool)
    ensures Filter(a + b, p) == Filter(a, p) + Filter(b, p)
    decreases |a|
  {
    if |a| > 0 {
      FilterAppend(a[1..], b, p);
      assert (a + b)[0] == a[0];
      assert (a + b)[1..] == a[1..] + b;
      assert Filter(a + b, p) == (if p(a[0]) then [a[0]] else []) + Filter(a[1..] + b, p);
      assert Filter(a, p) == (if p(a[0]) then [a[0]] else []) + Filter(a[1..], p);
    } else {
      assert a + b == b;
    }
  }

  /** Predicates that agree on every element filter alike. */
  lemma {:induction false} FilterCongruent<T>(s: seq<T>, p: T -> bool, q: T -> bool)
    requires forall x :: x in s ==> p(x) == q(x)
    ensures Filter(s, p) == Filter(s, q)
    decreases |s|
  {
    if |s| > 0 {
      FilterCongruent(s[1..], p, q);
    }
  }

  /** A predicate no element satisfies leaves nothing. */
  lemma {:induction false} FilterKeepsNone<T>(s: seq<T>, p: T -> bool)
    requires forall x :: x in s ==> !p(x)
    ensures Filter(s, p) == []
    decreases |s|
  {
    if |s| > 0 {
      FilterKeepsNone(s[1..], p);
    }
  }
}

=== FILE: loginpage.dfy ===
/**
 * The sign-in page: its own field checks, the fixed test accounts of the
 * front-end-only mode, the call into the authentication context otherwise,
 * and where it navigates. `SubmitIntended` is the corrected submission the
 * rest of the model relies on; `Submit` is the page as written.
 */
module LoginPage {
  import opened Opt
  import opened Text
  import opened JsValue
  import opened Http
  import opened Identity
  import opened Session
  import opened Guards

  /** The page's checks before any request: both fields, then at least six characters of password. */
  datatype Check = MissingFields | PasswordTooShort | Passed

  function Validate(email: string, password: string): (c: Check)
    ensures c.MissingFields? <==> email == "" || password == ""
    ensures c.PasswordTooShort? <==> email != "" && password != "" && |password| < 6
    ensures c.Passed? <==> email != "" && |password| >= 6
  {
    if email == "" || password == "" then MissingFields
    else if |password| < 6 then PasswordTooShort
    else Passed
  }

  /** A test account of the front-end-only mode: the record written and where it leads. */
  datatype TestAccount = TestAccount(user: User, redirect: string)

  /** The two test accounts; any other pair is refused. */
  function TestAccountFor(email: string, password: string): (r: Option<TestAccount>)
    ensures r.Some? <==> (email == "admin@admin.com" && password == "administrator")
                         || (email == "user@user.com" && password == "testing")
    ensures r.Some? ==> r.value.user.email == email && r.value.user.username == email
    ensures r.Some? ==> r.value.user.subscription.None?
    ensures r.Some? ==> (r.value.user.role == AdminRole <==> r.value.redirect == "/admin")
  {
    if email == "admin@admin.com" && password == "administrator" then
      Some(TestAccount(User(email, "1", email, AdminRole, "Admin", None), "/admin"))
    else if email == "user@user.com" && password == "testing" then
      Some(TestAccount(User(email, "2", email, UserRole, "User", None), "/dashboard"))
    else None
  }

  datatype Toast = Toast(title: string, description: string)

  /**
   * A finished submission: the authentication state, the requests the context
   * issued, the navigation (if any), the toast (if any), and the page's loading flag.
   */
  datatype Submitted = Submitted(
    session: State,
    calls: seq<Call>,
    navigateTo: Option<string>,
    toast: Option<Toast>,
    isLoading: bool)

  /** The toast for a failed check. */
  function CheckToast(c: Check): (t: Toast)
    requires !c.Passed?
    ensures c.MissingFields? ==> t.title == "Missing fields"
    ensures c.PasswordTooShort? ==> t.title == "Password too short"
  {
    if c.MissingFields? then Toast("Missing fields", "Please enter both email and password")
    else Toast("Password too short", "Password must be at least 6 characters")
  }

  /** The catch block's toast: the error's message, or a fallback for an empty one. */
  function FailureToast(message: string): (t: Toast)
    ensures t.title == "Login failed"
    ensures message != "" ==> t.description == message
    ensures message == "" ==> t.description == "Something went wrong during login"
  {
    Toast("Login failed", if message != "" then message else "Something went wrong during login")
  }

  /** The real-mode destination, chosen from the typed email. */
  function EmailDestination(email: string): (to: string)
    ensures to == "/admin" <==> Includes(email, "admin")
    ensures to != "/admin" ==> to == "/dashboard"
  {
    if Includes(email, "admin") then "/admin" else "/dashboard"
  }

  /**
   * `handleSubmit` as written. In the front-end-only mode a test account is
   * stored and set as the user, but the authenticated flag is left as it
   * was; in real mode the page navigates whenever `login` resolves, and
   * `login` resolves after a failure too.
   */
  function Submit(s: State, fakeAuth: bool, email: string, password: string,
                  csrf: Option<HttpError>, post: Reply<LoginReply>, isLoading: bool): (r: Submitted)
    ensures !Validate(email, password).Passed? ==>
              r == Submitted(s, [], None, Some(CheckToast(Validate(email, password))), isLoading)
    ensures Validate(email, password).Passed? ==> !r.isLoading
    ensures Validate(email, password).Passed? && fakeAuth ==>
              r.calls == [] && r.session.isAuthenticated == s.isAuthenticated
    ensures Validate(email, password).Passed? && fakeAuth && TestAccountFor(email, password).Some? ==>
              var a := TestAccountFor(email, password).value;
              && r.session.user == Some(a.user)
              && r.session.storage == s.storage[UserKey := UserRecord(a.user)]
              && r.navigateTo == Some(a.redirect)
    ensures Validate(email, password).Passed? && fakeAuth && TestAccountFor(email, password).None? ==>
              r.session == s && r.navigateTo.None? && r.toast == Some(FailureToast("Invalid test credentials"))
    ensures Validate(email, password).Passed? && !fakeAuth ==>
              var l := Login(s, false, email, password, csrf, post);
              && r.session == l.state && r.calls == l.calls
              && (r.navigateTo.Some? <==> !l.outcome.Rejected?)
              && (r.navigateTo.Some? ==> r.navigateTo.value == EmailDestination(email))
  {
    var c := Validate(email, password);
    if !c.Passed? then Submitted(s, [], None, Some(CheckToast(c)), isLoading)
    else if fakeAuth then
      match TestAccountFor(email, password)
      case None => Submitted(s, [], None, Some(FailureToast("Invalid test credentials")), false)
      case Some(a) =>
        var signedIn := s.(user := Some(a.user), storage := s.storage[UserKey := UserRecord(a.user)]);
        Submitted(signedIn, [], Some(a.redirect), None, false)
    else
      var l := Login(s, false, email, password, csrf, post);
      match l.outcome
      case Rejected(m) => Submitted(l.state, l.calls, None, Some(FailureToast(m)), false)
      case _ => Submitted(l.state, l.calls, Some(EmailDestination(email)), None, false)
  }

  /** Segments of the two destinations, as the route table reads them. */
  function Segments(to: string): seq<string> {
    if to == "/admin" then ["admin"] else if to == "/dashboard" then ["dashboard"] else []
  }

  /**
   * As written, a refused password (the server answers with a text `detail`)
   * still takes a non-admin email to the dashboard, whose guard, the session
   * now being signed out, sends the user back to /login.
   */
  lemma FailedLoginStillNavigates(s: State, email: string, password: string, e: HttpError)
    requires !s.loading && Validate(email, password).Passed? && !Includes(email, "admin")
    requires Detail(e).Str?
    ensures var r := Submit(s, false, email, password, None, Failure(e), false);
            && r.navigateTo == Some("/dashboard")
            && !r.session.isAuthenticated
            && Render(r.session, Segments("/dashboard")) == Navigate("/login", true)
  {
    assert Lower("dashboard") == "dashboard";
  }

  /**
   * As written, the administrator test account is sent to /admin, but the
   * authenticated flag was never raised, so the admin guard sends the user
   * back to /login; the session is not even consistent.
   */
  lemma TestLoginBouncedByGuard(s: State)
    requires !s.loading && !s.isAuthenticated
    ensures var r := Submit(s, true, "admin@admin.com", "administrator", None, Failure(HttpError(None, "")), false);
            && r.navigateTo == Some("/admin")
            && !Consistent(r.session)
            && Render(r.session, Segments("/admin")) == Navigate("/login", true)
  {
  }

  /**
   * The corrected submission: a test account sets the authenticated flag
   * together with the user, and in real mode the page navigates only after a
   * sign-in, to /admin exactly when the signed-in user is an administrator.
   */
  function SubmitIntended(s: State, fakeAuth: bool, email: string, password: string,
                          csrf: Option<HttpError>, post: Reply<LoginReply>, isLoading: bool): (r: Submitted)
    ensures !Validate(email, password).Passed? ==>
              r == Submitted(s, [], None, Some(CheckToast(Validate(email, password))), isLoading)
    ensures Validate(email, password).Passed? ==> !r.isLoading
    ensures Validate(email, password).Passed? && fakeAuth ==>
              (r.navigateTo.Some? <==> TestAccountFor(email, password).Some?)
    ensures Validate(email, password).Passed? && !fakeAuth ==>
              (r.navigateTo.Some? <==> Login(s, false, email, password, csrf, post).outcome.LoggedIn?)
    ensures r.navigateTo.Some? ==>
              r.session.isAuthenticated && r.session.user.Some?
              && StoredUser(r.session.storage) == r.session.user
              && (r.navigateTo.value == "/admin" <==> IsAdmin(r.session))
              && (r.navigateTo.value != "/admin" ==> r.navigateTo.value == "/dashboard")
    ensures r.navigateTo.None? && Consistent(s) ==> Consistent(r.session)
  {
    var c := Validate(email, password);
    if !c.Passed? then Submitted(s, [], None, Some(CheckToast(c)), isLoading)
    else if fakeAuth then
      match TestAccountFor(email, password)
      case None => Submitted(s, [], None, Some(FailureToast("Invalid test credentials")), false)
      case Some(a) =>
        var signedIn := State(Some(a.user), true, s.loading, s.storage[UserKey := UserRecord(a.user)]);
        Submitted(signedIn, [], Some(a.redirect), None, false)
    else
      var l := Login(s, false, email, password, csrf, post);
      match l.outcome
      case LoggedIn =>
        Submitted(l.state, l.calls, Some(if IsAdmin(l.state) then "/admin" else "/dashboard"), None, false)
      case Rejected(m) => Submitted(l.state, l.calls, None, Some(FailureToast(m)), false)
      case Failed(d) => Submitted(l.state, l.calls, None, Some(FailureToast(d)), false)
      case Skipped => Submitted(l.state, l.calls, None, None, false)
  }

  /** After the corrected submission, the page it navigates to is admitted by its guard once loading is over. */
  lemma IntendedDestinationAdmitted(s: State, fakeAuth: bool, email: string, password: string,
                                    csrf: Option<HttpError>, post: Reply<LoginReply>, isLoading: bool)
    requires !s.loading
    ensures var r := SubmitIntended(s, fakeAuth, email, password, csrf, post, isLoading);
            r.navigateTo.Some? ==> Render(r.session, Segments(r.navigateTo.value)) == Children
  {
    var r := SubmitIntended(s, fakeAuth, email, password, csrf, post, isLoading);
    if r.navigateTo.Some? {
      assert !r.session.loading;
      assert r.navigateTo.value == "/admin" ==> Lower("admin") == "admin";
      assert r.navigateTo.value == "/dashboard" ==> Lower("dashboard") == "dashboard";
    }
  }
}

=== FILE: messages.dfy ===
/**
 * The conversations page: the list it starts with and replaces from the
 * server, the three-field search, the status colours, and the platform icons.
 */
module MessagesPage {
  import opened Text
  import opened Lists

  datatype Conversation = Conversation(
    id: int,
    user: string,
    bot: string,
    messages: int,
    lastMessage: string,
    status: string,
    platform: string,
    lastMsg: string)

  /** The four sample conversations the page starts with and falls back to. */
  const DummyConversations: seq<Conversation> := [
    Conversation(1, "john@example.com", "Support Bot", 12, "2 minutes ago", "active", "discord",
                 "How can I reset my password?"),
    Conversation(2, "sarah@example.com", "FAQ Assistant", 5, "15 minutes ago", "resolved", "telegram",
                 "Thank you for the help!"),
    Conversation(3, "mike@example.com", "Order Tracker", 8, "1 hour ago", "pending", "slack",
                 "Where is my order #12345?"),
    Conversation(4, "anna@example.com", "Support Bot", 15, "3 hours ago", "resolved", "discord",
                 "Issue has been resolved, thanks!")
  ]

  datatype Page = Page(conversations: seq<Conversation>, searchTerm: string)

  /** The first render: the samples, and an empty search. */
  function Initial(): (p: Page)
    ensures p.conversations == DummyConversations && p.searchTerm == ""
  {
    Page(DummyConversations, "")
  }

  /** How `GET /api/messages` ends: an array body, or anything else (another body, or a failure). */
  datatype Fetched = Rows(rows: seq<Conversation>) | Unusable

  /** An array replaces the list; anything else restores the samples. The search is kept. */
  function FetchSettled(p: Page, f: Fetched): (r: Page)
    ensures f.Rows? ==> r.conversations == f.rows
    ensures f.Unusable? ==> r.conversations == DummyConversations
    ensures r.searchTerm == p.searchTerm
  {
    match f
    case Rows(rows) => p.(conversations := rows)
    case Unusable => p.(conversations := DummyConversations)
  }

  /** A conversation matches when its user, bot or last message contains the term, ignoring case. */
  predicate Matches(c: Conversation, term: string) {
    var t := Lower(term);
    Includes(Lower(c.user), t) || Includes(Lower(c.bot), t) || Includes(Lower(c.lastMsg), t)
  }

  /** The listed conversations: those that match, in order. */
  function Filtered(p: Page): (r: seq<Conversation>)
    ensures forall c :: c in r <==> c in p.conversations && Matches(c, p.searchTerm)
    ensures forall c {:trigger multiset(r)[c]} :: multiset(r)[c] == if Matches(c, p.searchTerm) then multiset(p.conversations)[c] else 0
    ensures IsSubsequence(r, p.conversations)
  {
    FilterIsSubsequence(p.conversations, c => Matches(c, p.searchTerm));
    Filter(p.conversations, c => Matches(c, p.searchTerm))
  }

  /** An empty term lists every conversation. */
  lemma EmptyTermListsAll(p: Page)
    requires p.searchTerm == ""
    ensures Filtered(p) == p.conversations
  {
    forall c | c in p.conversations ensures Matches(c, "") {
      IncludesEmpty(Lower(c.user));
    }
    FilterKeepsAll(p.conversations, c => Matches(c, p.searchTerm));
  }

  /** "No conversations found" shows when nothing matches a non-empty term. */
  predicate ShowsEmptyState(p: Page) {
    |Filtered(p)| == 0 && p.searchTerm != ""
  }

  /** The empty state shows exactly when a non-empty term matches none of the conversations. */
  lemma EmptyStateMeansNoMatch(p: Page)
    ensures ShowsEmptyState(p) <==> p.searchTerm != "" && forall c :: c in p.conversations ==> !Matches(c, p.searchTerm)
  {
    if forall c :: c in p.conversations ==> !Matches(c, p.searchTerm) {
      FilterKeepsNone(p.conversations, c => Matches(c, p.searchTerm));
    }
  }

  /** An empty list with no search shows neither cards nor the empty state. */
  lemma NoStateForEmptyListWithoutTerm()
    ensures !ShowsEmptyState(Page([], ""))
    ensures Filtered(Page([], "")) == []
  {
  }

  /** Typing changes only the term. */
  function Type(p: Page, term: string): (r: Page)
    ensures r.searchTerm == term && r.conversations == p.conversations
  {
    p.(searchTerm := term)
  }

  const Icons: map<string, string> := map[
    "discord" := "\U{1F3AE}",
    "telegram" := "\U{1F4F1}",
    "slack" := "\U{1F4AC}",
    "twitch" := "\U{1F3A5}"
  ]

  /** `getPlatformIcon`: the lower-cased platform looked up, with the robot for anything else. */
  function PlatformIcon(platform: string): (r: string)
    ensures Lower(platform) in Icons ==> r == Icons[Lower(platform)]
    ensures Lower(platform) !in Icons ==> r == "\U{1F916}"
  {
    if Lower(platform) in Icons then Icons[Lower(platform)] else "\U{1F916}"
  }

  /** The icon lookup ignores case. */
  lemma PlatformIconIgnoresCase(platform: string)
    ensures PlatformIcon(platform) == PlatformIcon(Lower(platform))
  {
    LowerIdempotent(platform);
  }

  const ActiveColor := "bg-green-100 text-green-800 dark:bg-green-900 dark:text-green-200 border-green-200 dark:border-green-800"
  const ResolvedColor := "bg-blue-100 text-blue-800 dark:bg-blue-900 dark:text-blue-200 border-blue-200 dark:border-blue-800"
  const PendingColor := "bg-orange-100 text-orange-800 dark:bg-orange-900 dark:text-orange-200 border-orange-200 dark:border-orange-800"
  const OtherColor := "bg-slate-100 text-slate-800 dark:bg-slate-700 dark:text-slate-200 border-slate-200 dark:border-slate-600"

  /** `getStatusColor`: an exact, case-sensitive switch with slate for any other status. */
  function StatusColor(status: string): (r: string)
    ensures status == "active" <==> r == ActiveColor
    ensures status == "resolved" <==> r == ResolvedColor
    ensures status == "pending" <==> r == PendingColor
    ensures status !in {"active", "resolved", "pending"} <==> r == OtherColor
  {
    match status
    case "active" => ActiveColor
    case "resolved" => ResolvedColor
    case "pending" => PendingColor
    case _ => OtherColor
  }
}

=== FILE: mybots.dfy ===
/**
 * The "My Bots" page: loading the fleet with its fallback, the per-bot toggle
 * with its loading map, deleting a bot, and the platform theme lookup.
 */
module MyBotsPage {
  import opened Opt
  import opened Text
  import opened JsValue
  import opened Http
  import opened Fleet

  /** `bots`, `loading`, and the per-bot `loadingBots` record. */
  datatype Page = Page(bots: seq<Bot>, loading: bool, loadingBots: map<int, bool>)

  /** A toast: title, description (any value), and whether it is the destructive variant. */
  datatype Toast = Toast(title: string, description: Value, destructive: bool)

  /** The three sample bots installed when the list cannot be loaded. */
  const DummyBots: seq<Bot> := [
    Bot(1, "Support Bot", "discord", "active", Some(120)),
    Bot(2, "FAQ Assistant", "telegram", "inactive", Some(45)),
    Bot(3, "Order Tracker", "slack", "active", Some(76))
  ]

  /** How `GET /api/bots` settles: an array body, another body, or a failure. */
  datatype BotsReply = BotRows(rows: seq<Bot>) | NotAnArray | FetchFailed

  /** `fetchBots` starting: loading is set. */
  function FetchStarted(p: Page): (r: Page)
    ensures r.loading && r.bots == p.bots && r.loadingBots == p.loadingBots
  {
    p.(loading := true)
  }

  /**
   * `fetchBots` settling: an array replaces the list, another body empties it,
   * a failure installs the sample bots; loading ends in every case.
   */
  function FetchSettled(p: Page, reply: BotsReply): (r: Page)
    ensures !r.loading && r.loadingBots == p.loadingBots
    ensures reply.BotRows? ==> r.bots == reply.rows
    ensures reply.NotAnArray? ==> r.bots == []
    ensures reply.FetchFailed? ==> r.bots == DummyBots
  {
    match reply
    case BotRows(rows) => Page(rows, false, p.loadingBots)
    case NotAnArray => Page([], false, p.loadingBots)
    case FetchFailed => Page(DummyBots, false, p.loadingBots)
  }

  /** The sample fleet has two active bots serving 241 users. */
  lemma DummyFleetStats()
    ensures ActiveCount(DummyBots) == 2 && TotalUsers(DummyBots) == 241
  {
    ActiveCountIsTally(DummyBots);
  }

  /** Whether the switch of a bot is disabled: `loadingBots[id]`, absent meaning enabled. */
  predicate SwitchDisabled(p: Page, id: int) {
    id in p.loadingBots && p.loadingBots[id]
  }

  /** `toggleBot(id)` starting: that bot's entry becomes true, no other entry changes. */
  function ToggleStarted(p: Page, id: int): (r: Page)
    ensures SwitchDisabled(r, id)
    ensures r.bots == p.bots && r.loading == p.loading
    ensures forall k :: k != id ==> (k in r.loadingBots <==> k in p.loadingBots)
    ensures forall k :: k != id && k in p.loadingBots ==> r.loadingBots[k] == p.loadingBots[k]
  {
    p.(loadingBots := p.loadingBots[id := true])
  }

  /** How the toggle POST settles: a response body, or a rejection. */
  datatype ToggleReply = Answered(data: Value) | Threw(error: HttpError)

  const ToggleFallback := "Could not toggle bot status."

  /** The toggle's end: the page after it, whether `fetchBots` was called, and the toast shown. */
  datatype ToggleEnd = ToggleEnd(page: Page, refetch: bool, toast: Toast)

  /** A thrown error's description: `detail`, else `message` of the response body, else the fallback. */
  function ToggleErrorDescription(e: HttpError): (r: Value)
    ensures Truthy(Detail(e)) ==> r == Detail(e)
    ensures !Truthy(Detail(e)) && Truthy(Get(ErrorData(e), "message")) ==> r == Get(ErrorData(e), "message")
    ensures !Truthy(Detail(e)) && !Truthy(Get(ErrorData(e), "message")) ==> r == Str(ToggleFallback)
  {
    Or(Or(Detail(e), Get(ErrorData(e), "message")), Str(ToggleFallback))
  }

  /**
   * `toggleBot(id)` settling. The list is refetched exactly when the response's
   * `success` is truthy; a nullish body makes reading `success` throw, which the
   * catch block reports with the fallback. The bot's entry becomes false.
   */
  function ToggleSettled(p: Page, id: int, reply: ToggleReply): (r: ToggleEnd)
    ensures !SwitchDisabled(r.page, id) && id in r.page.loadingBots
    ensures forall k :: k != id ==> (k in r.page.loadingBots <==> k in p.loadingBots)
    ensures forall k :: k != id && k in p.loadingBots ==> r.page.loadingBots[k] == p.loadingBots[k]
    ensures r.refetch <==> reply.Answered? && !Nullish(reply.data) && Truthy(Get(reply.data, "success"))
    ensures r.refetch ==> r.page.loading && !r.toast.destructive
    ensures !r.refetch ==> r.page.loading == p.loading && r.toast.destructive && Truthy(r.toast.description)
    ensures reply.Answered? && !Nullish(reply.data) && !r.refetch ==>
              r.toast.description == Or(Get(reply.data, "message"), Str(ToggleFallback))
    ensures reply.Threw? ==> r.toast.description == ToggleErrorDescription(reply.error)
    ensures r.page.bots == p.bots
  {
    var done := p.(loadingBots := p.loadingBots[id := false]);
    match reply
    case Answered(data) =>
      if Nullish(data) then
        ToggleEnd(done, false, Toast("Error", Str(ToggleFallback), true))
      else if Truthy(Get(data, "success")) then
        ToggleEnd(FetchStarted(done), true, Toast("Bot status updated!", Get(data, "message"), false))
      else
        ToggleEnd(done, false, Toast("Error", Or(Get(data, "message"), Str(ToggleFallback)), true))
    case Threw(e) =>
      ToggleEnd(done, false, Toast("Error", ToggleErrorDescription(e), true))
  }

  /** A finished toggle leaves every other bot's switch as it was, and its own enabled. */
  lemma ToggleRoundTrip(p: Page, id: int, other: int, reply: ToggleReply)
    requires other != id
    ensures var r := ToggleSettled(ToggleStarted(p, id), id, reply).page;
            !SwitchDisabled(r, id) && SwitchDisabled(r, other) == SwitchDisabled(p, other)
  {
  }

  /** `deleteBot` settling: success refetches and confirms; failure reports `detail` or a fallback. */
  function DeleteSettled(p: Page, name: string, reply: Reply<()>): (r: ToggleEnd)
    ensures r.refetch <==> reply.Success?
    ensures reply.Success? ==>
              r.page == FetchStarted(p) && r.toast.description == Str(name + " has been permanently deleted.")
    ensures reply.Failure? ==>
              r.page == p && r.toast.description == Or(Detail(reply.error), Str("Could not delete bot."))
  {
    match reply
    case Success(_) =>
      ToggleEnd(FetchStarted(p), true, Toast("Bot deleted", Str(name + " has been permanently deleted."), false))
    case Failure(e) =>
      ToggleEnd(p, false, Toast("Error", Or(Detail(e), Str("Could not delete bot.")), true))
  }

  datatype Theme = Theme(gradient: string, icon: string, accent: string, shadow: string)

  const SlateTheme := Theme("from-slate-500 to-slate-600", "\U{1F916}",
                            "border-slate-500/30 bg-slate-500/10 text-slate-300", "shadow-slate-500/20")

  const Themes: map<string, Theme> := map[
    "discord" := Theme("from-indigo-500 via-purple-500 to-pink-500", "\U{1F3AE}",
                       "border-indigo-500/30 bg-indigo-500/10 text-indigo-300", "shadow-indigo-500/20"),
    "telegram" := Theme("from-blue-400 via-cyan-500 to-teal-500", "\U{1F4F1}",
                        "border-cyan-500/30 bg-cyan-500/10 text-cyan-300", "shadow-cyan-500/20"),
    "slack" := Theme("from-green-400 via-emerald-500 to-teal-600", "\U{1F4AC}",
                     "border-emerald-500/30 bg-emerald-500/10 text-emerald-300", "shadow-emerald-500/20"),
    "twitch" := Theme("from-purple-500 via-violet-600 to-purple-700", "\U{1F3A5}",
                      "border-purple-500/30 bg-purple-500/10 text-purple-300", "shadow-purple-500/20")
  ]

  /** `getPlatformTheme`: looks the lower-cased platform up, with the slate theme for anything unknown. */
  function PlatformTheme(platform: string): (t: Theme)
    ensures Lower(platform) in Themes ==> t == Themes[Lower(platform)]
    ensures Lower(platform) !in Themes ==> t == SlateTheme
  {
    if Lower(platform) in Themes then Themes[Lower(platform)] else SlateTheme
  }

  /** The lookup ignores ASCII case. */
  lemma PlatformThemeIgnoresCase(platform: string)
    ensures PlatformTheme(platform) == PlatformTheme(Lower(platform))
    ensures PlatformTheme("Discord") == Themes["discord"]
  {
    LowerIdempotent(platform);
    assert Lower("Discord") == "discord";
  }

  /** The four figures of the header: total, active, total users, and the fixed uptime text. */
  datatype Stats = Stats(total: nat, active: nat, users: int, uptime: string)

  function HeaderStats(bots: seq<Bot>): (r: Stats)
    ensures r.active <= r.total == |bots|
    ensures r.active == r.total <==> forall i :: 0 <= i < |bots| ==> IsActive(bots[i])
    ensures (forall i :: 0 <= i < |bots| ==> UsersOf(bots[i]) >= 0) ==> r.users >= 0
    ensures r.active == ActiveCount(bots)
    ensures r.users == TotalUsers(bots)
    ensures r.uptime == "99.2%"
  {
    Stats(|bots|, ActiveCount(bots), TotalUsers(bots), "99.2%")
  }

  /** One card of the grid: its theme, the switch position and state, the users shown, online or not. */
  datatype Card = Card(id: int, theme: Theme, checked: bool, disabled: bool, users: int, online: bool)

  /** What the grid area shows. */
  datatype Grid = SkeletonGrid | FirstBotPrompt | Cards(cards: seq<Card>)

  function CardOf(p: Page, b: Bot): (c: Card)
    ensures c.id == b.id && c.theme == PlatformTheme(b.platform) && c.users == UsersOf(b)
    ensures c.checked == c.online == IsActive(b)
    ensures c.disabled == SwitchDisabled(p, b.id)
  {
    Card(b.id, PlatformTheme(b.platform), IsActive(b), SwitchDisabled(p, b.id), UsersOf(b), IsActive(b))
  }

  /** The grid: the skeleton while loading, the first-bot prompt for an empty list, else one card per bot in order. */
  function RenderGrid(p: Page): (g: Grid)
    ensures p.loading <==> g.SkeletonGrid?
    ensures g.FirstBotPrompt? <==> !p.loading && p.bots == []
    ensures g.Cards? ==> |g.cards| == |p.bots|
    ensures g.Cards? ==> forall i :: 0 <= i < |g.cards| && i < |p.bots| ==> g.cards[i] == CardOf(p, p.bots[i])
  {
    if p.loading then SkeletonGrid
    else if |p.bots| == 0 then FirstBotPrompt
    else Cards(seq(|p.bots|, i requires 0 <= i < |p.bots| => CardOf(p, p.bots[i])))
  }

  /** After a failed load the page shows three cards, two of them online. */
  lemma FailedLoadShowsSamples(p: Page)
    ensures var g := RenderGrid(FetchSettled(p, FetchFailed));
            g.Cards? && |g.cards| == 3 && g.cards[0].online && !g.cards[1].online && g.cards[2].online
  {
  }
}

=== FILE: option.dfy ===
/** Optional values: JavaScript's `undefined`/`null` for a value that may be absent. */
module Opt {

  datatype Option<+T> = None | Some(value: T) {

    /** The value, or `default` when absent (JavaScript's `x ?? default`). */
    function GetOr(default: T): T {
      match this
      case Some(v) => v
      case None => default
    }
  }
}

=== FILE: session.dfy ===
/**
 * The authentication context: the session record (`user`, `isAuthenticated`,
 * `loading`, and the browser storage it mirrors into) and its operations
 * `bootstrap`, `login`, `signup`, `logout` and `isAdmin`. Every asynchronous
 * step is an explicit input: how the CSRF fetch and each POST settled.
 */
module Session {
  import opened Opt
  import opened Text
  import opened JsValue
  import opened Identity
  import opened Http

  datatype State = State(user: Option<User>, isAuthenticated: bool, loading: bool, storage: Storage)

  /** The two authentication fields agree. */
  predicate Consistent(s: State) {
    s.isAuthenticated <==> s.user.Some?
  }

  /** Memory and storage agree: a signed-in user is the stored record, and a signed-out session stores none. */
  predicate Persisted(s: State) {
    StoredUser(s.storage) == s.user
  }

  /** `user?.role === 'admin'`. */
  predicate IsAdmin(s: State) {
    s.user.Some? && s.user.value.role == AdminRole
  }

  /** The requests the context issues, in order. */
  datatype Call = GetCsrf | PostLogin(username: string, password: string) | PostSignup(username: string, password: string) | PostLogout

  /** The state hooks' initial values: nobody signed in, still loading. */
  function Mount(storage: Storage): (s: State)
    ensures s.user.None? && !s.isAuthenticated && s.loading
    ensures s.storage == storage
  {
    State(None, false, true, storage)
  }

  /**
   * The synchronous part of the mount effect: restore a persisted record, then
   * in fake-auth mode stop loading at once (otherwise a CSRF fetch is started).
   */
  function Bootstrap(s: State, fakeAuth: bool): (r: State)
    ensures r.storage == s.storage
    ensures StoredUser(s.storage).Some? ==> r.user == StoredUser(s.storage) && r.isAuthenticated
    ensures StoredUser(s.storage).None? ==> r.user == s.user && r.isAuthenticated == s.isAuthenticated
    ensures r.loading <==> s.loading && !fakeAuth
  {
    var restored := match StoredUser(s.storage)
                    case Some(u) => s.(user := Some(u), isAuthenticated := true)
                    case None => s;
    if fakeAuth then restored.(loading := false) else restored
  }

  /**
   * The CSRF fetch started by the bootstrap settles: success and failure alike
   * clear `loading`. The request goes through the shared instance, so a 401
   * also removes "user" from storage (and forces a load of /login, which
   * discards this in-memory state); the hooks' user and flag are untouched.
   */
  function CsrfSettled(s: State, csrf: Option<HttpError>): (r: State)
    ensures !r.loading
    ensures r.user == s.user && r.isAuthenticated == s.isAuthenticated
    ensures csrf.Some? && Unauthorized(csrf.value) ==> r.storage == RemoveKey(s.storage, UserKey)
    ensures csrf.None? || !Unauthorized(csrf.value) ==> r.storage == s.storage
  {
    match csrf
    case None => s.(loading := false)
    case Some(e) => s.(loading := false, storage := StorageAfter(s.storage, e))
  }

  /** A freshly mounted provider restores the stored session before any network result. */
  lemma BootstrapRestores(storage: Storage, fakeAuth: bool)
    ensures Consistent(Bootstrap(Mount(storage), fakeAuth))
    ensures Persisted(Bootstrap(Mount(storage), fakeAuth))
    ensures StoredUser(storage).Some? ==> Bootstrap(Mount(storage), fakeAuth).isAuthenticated
    ensures Bootstrap(Mount(storage), fakeAuth).loading <==> !fakeAuth
  {
  }

  /**
   * `logout`: whatever the POST to /api/logout does, the session is cleared
   * and "user" removed; nothing else changes.
   */
  function Logout(s: State): (r: State)
    ensures r.user.None? && !r.isAuthenticated
    ensures r.loading == s.loading
    ensures r.storage == RemoveKey(s.storage, UserKey)
    ensures Consistent(r) && Persisted(r)
  {
    State(None, false, s.loading, RemoveKey(s.storage, UserKey))
  }

  /** Logging out twice leaves the same state as logging out once. */
  lemma LogoutIdempotent(s: State)
    ensures Logout(Logout(s)) == Logout(s)
  {
  }

  /** The `user` object of a successful login response. */
  datatype ReplyUser = ReplyUser(id: string, username: string, subscription: Option<string>)

  /** The body of a successful login response; `user` may be missing. */
  datatype LoginReply = LoginReply(user: Option<ReplyUser>)

  /**
   * The record built from a login response: email and username are the response
   * username, the name is the part before the first "@", and the role is admin
   * exactly when the username contains "admin".
   */
  function UserFromReply(u: ReplyUser): (r: User)
    ensures r.id == u.id && r.username == u.username && r.email == u.username
    ensures r.subscription == u.subscription
    ensures StartsWith(u.username, r.name) && '@' !in r.name
    ensures r.name == u.username || u.username[|r.name|] == '@'
    ensures r.role == AdminRole <==> Includes(u.username, "admin")
  {
    User(
      username := u.username,
      id := u.id,
      email := u.username,
      role := if Includes(u.username, "admin") then AdminRole else UserRole,
      name := TakeUntil(u.username, '@'),
      subscription := u.subscription)
  }

  /** The error `data.user.id` raises when the response has no `user` (V8 wording). */
  const MissingUserError := HttpError(None, "Cannot read properties of undefined (reading 'id')")

  /** The catch block's description text, or the message of the TypeError raised while building it. */
  datatype Described = Describes(text: string) | Throws(message: string)

  /**
   * One entry of a list-valued `detail`: `${e.loc?.join('.')}: ${e.msg}`.
   * Reading `loc` of a nullish entry, or calling `join` on a `loc` that is
   * present but not an array, throws (V8 wording); an absent `loc` renders
   * as "undefined".
   */
  function DetailEntryText(e: Value): (r: Described)
    ensures Nullish(e) ==> r.Throws?
    ensures Get(e, "loc").Arr? ==>
              r == Describes(ArrayJoin(Get(e, "loc").items, ".") + ": " + ToStr(Get(e, "msg")))
    ensures !Nullish(e) && Nullish(Get(e, "loc")) ==> r == Describes("undefined: " + ToStr(Get(e, "msg")))
    ensures !Nullish(e) && !Nullish(Get(e, "loc")) && !Get(e, "loc").Arr? ==>
              r == Throws("e.loc?.join is not a function")
  {
    if Nullish(e) then Throws("Cannot read properties of " + ToStr(e) + " (reading 'loc')")
    else
      var loc := Get(e, "loc");
      if Nullish(loc) then Describes("undefined: " + ToStr(Get(e, "msg")))
      else if loc.Arr? then Describes(ArrayJoin(loc.items, ".") + ": " + ToStr(Get(e, "msg")))
      else Throws("e.loc?.join is not a function")
  }

  /** `detail.map(...).join(", ")`: the first entry that throws aborts the whole description. */
  function DetailListText(items: seq<Value>): (r: Described)
    ensures r.Throws? <==> exists i :: 0 <= i < |items| && DetailEntryText(items[i]).Throws?
    decreases |items|
  {
    if |items| == 0 then Describes("")
    else
      match DetailEntryText(items[0])
      case Throws(m) => Throws(m)
      case Describes(first) =>
        if |items| == 1 then Describes(first)
        else
          match DetailListText(items[1..])
          case Throws(m) => Throws(m)
          case Describes(rest) => Describes(first + ", " + rest)
  }

  /** A validation issue of the backend: where (`loc`) and what (`msg`). */
  function Issue(loc: seq<string>, msg: string): Value {
    Obj(map["loc" := Arr(seq(|loc|, i requires 0 <= i < |loc| => Str(loc[i]))), "msg" := Str(msg)])
  }

  /** The text one issue renders as: its location joined by ".", then ": ", then the message. */
  function IssueText(loc: seq<string>, msg: string): string {
    Join(loc, ".") + ": " + msg
  }

  /** A list of issues renders as their texts joined by ", ". */
  lemma {:induction false} DetailListOfIssues(locs: seq<seq<string>>, msgs: seq<string>)
    requires |locs| == |msgs|
    ensures DetailListText(seq(|locs|, i requires 0 <= i < |locs| => Issue(locs[i], msgs[i])))
            == Describes(Join(seq(|locs|, i requires 0 <= i < |locs| => IssueText(locs[i], msgs[i])), ", "))
    decreases |locs|
  {
    var items := seq(|locs|, i requires 0 <= i < |locs| => Issue(locs[i], msgs[i]));
    var texts := seq(|locs|, i requires 0 <= i < |locs| => IssueText(locs[i], msgs[i]));
    if |locs| > 0 {
      ArrayJoinStrings(locs[0], ".");
      assert DetailEntryText(items[0]) == Describes(texts[0]);
      if |locs| > 1 {
        DetailListOfIssues(locs[1..], msgs[1..]);
        assert items[1..] == seq(|locs[1..]|, i requires 0 <= i < |locs[1..]| => Issue(locs[1..][i], msgs[1..][i]));
        assert texts[1..] == seq(|locs[1..]|, i requires 0 <= i < |locs[1..]| => IssueText(locs[1..][i], msgs[1..][i]));
      }
    }
  }

  /**
   * The description the login catch block builds: a list `detail` rendered entry by
   * entry, a string `detail` verbatim, else a non-empty `error.message`, else "Login failed.".
   */
  function LoginFailureDescription(e: HttpError): (r: Described)
    ensures Detail(e).Arr? ==> r == DetailListText(Detail(e).items)
    ensures Detail(e).Str? ==> r == Describes(Detail(e).s)
    ensures !Detail(e).Arr? && !Detail(e).Str? ==>
              r == Describes(if e.message != "" then e.message else "Login failed.")
  {
    var detail := Detail(e);
    if detail.Arr? then DetailListText(detail.items)
    else if detail.Str? then Describes(detail.s)
    else if e.message != "" then Describes(e.message)
    else Describes("Login failed.")
  }

  /** A failure whose `detail` is a single issue is described as that issue's text, whatever the status and message. */
  lemma {:induction false} SingleIssueDescription(status: int, loc: seq<string>, msg: string, message: string)
    ensures LoginFailureDescription(HttpError(Some(ErrorResponse(status, Obj(map["detail" := Arr([Issue(loc, msg)])]))), message))
            == Describes(IssueText(loc, msg))
  {
    var e := HttpError(Some(ErrorResponse(status, Obj(map["detail" := Arr([Issue(loc, msg)])]))), message);
    assert Detail(e) == Arr([Issue(loc, msg)]);
    DetailListOfIssues([loc], [msg]);
    assert [Issue(loc, msg)] == seq(1, i requires 0 <= i < 1 => Issue([loc][i], [msg][i]));
    assert seq(1, i requires 0 <= i < 1 => IssueText([loc][i], [msg][i])) == [IssueText(loc, msg)];
  }

  /**
   * How `login` ends: skipped (fake-auth mode), signed in, failed with a
   * description that is computed but neither shown nor rethrown, or rejected
   * because building that description threw.
   */
  datatype LoginOutcome = Skipped | LoggedIn | Failed(description: string) | Rejected(message: string)

  datatype LoginRun = LoginRun(state: State, calls: seq<Call>, outcome: LoginOutcome)

  /** The catch block of `login`: `logout()` (which posts to /api/logout), then the description. */
  function LoginFailed(s: State, calls: seq<Call>, e: HttpError): (r: LoginRun)
    ensures r.state == Logout(s)
    ensures r.calls == calls + [PostLogout]
    ensures r.outcome.Failed? || r.outcome.Rejected?
    ensures r.outcome.Rejected? <==> LoginFailureDescription(e).Throws?
    ensures r.outcome.Failed? ==> r.outcome.description == LoginFailureDescription(e).text
  {
    var outcome := match LoginFailureDescription(e)
                   case Describes(t) => Failed(t)
                   case Throws(m) => Rejected(m);
    LoginRun(Logout(s), calls + [PostLogout], outcome)
  }

  /**
   * `login(email, password)`: fetch a CSRF token, post the credentials, and on a
   * response carrying `user` sign in and persist the record; any failure logs out.
   */
  function Login(s: State, fakeAuth: bool, email: string, password: string,
                 csrf: Option<HttpError>, post: Reply<LoginReply>): (r: LoginRun)
    ensures fakeAuth ==> r == LoginRun(s, [], Skipped)
    ensures r.outcome.LoggedIn? <==> !fakeAuth && csrf.None? && post.Success? && post.value.user.Some?
    ensures r.outcome.LoggedIn? ==>
              && r.state.user == Some(UserFromReply(post.value.user.value))
              && r.state.isAuthenticated
              && r.state.storage == s.storage[UserKey := UserRecord(UserFromReply(post.value.user.value))]
    ensures !fakeAuth && !r.outcome.LoggedIn? ==> r.state == Logout(s) && |r.calls| > 0 && r.calls[|r.calls| - 1] == PostLogout
    ensures !fakeAuth && csrf.None? ==> |r.calls| >= 2 && r.calls[..2] == [GetCsrf, PostLogin(email, password)]
    ensures r.state.loading == s.loading
    ensures Consistent(s) ==> Consistent(r.state)
    ensures Persisted(s) ==> Persisted(r.state)
  {
    if fakeAuth then LoginRun(s, [], Skipped)
    else if csrf.Some? then LoginFailed(s, [GetCsrf], csrf.value)
    else
      var calls := [GetCsrf, PostLogin(email, password)];
      match post
      case Failure(e) => LoginFailed(s, calls, e)
      case Success(reply) =>
        match reply.user
        case None => LoginFailed(s, calls, MissingUserError)
        case Some(u) =>
          var user := UserFromReply(u);
          LoginRun(State(Some(user), true, s.loading, s.storage[UserKey := UserRecord(user)]), calls, LoggedIn)
  }

  /** Login rejects only when a `detail` entry is nullish or carries a `loc` that is not an array. */
  lemma LoginRejectsOnlyOnMalformedDetail(s: State, fakeAuth: bool, email: string, password: string,
                                          csrf: Option<HttpError>, post: Reply<LoginReply>)
    requires Login(s, fakeAuth, email, password, csrf, post).outcome.Rejected?
    ensures var e := if csrf.Some? then csrf.value else post.error;
            Detail(e).Arr? && exists i :: 0 <= i < |Detail(e).items| && DetailEntryText(Detail(e).items[i]).Throws?
  {
  }

  /** Number of login requests in a trace. */
  function LoginPosts(calls: seq<Call>): nat
    decreases |calls|
  {
    if |calls| == 0 then 0
    else (if calls[0].PostLogin? then 1 else 0) + LoginPosts(calls[1..])
  }

  lemma {:induction false} LoginPostsAppend(a: seq<Call>, b: seq<Call>)
    ensures LoginPosts(a + b) == LoginPosts(a) + LoginPosts(b)
    decreases |a|
  {
    if |a| > 0 {
      LoginPostsAppend(a[1..], b);
      assert (a + b)[1..] == a[1..] + b;
    } else {
      assert a + b == b;
    }
  }

  /**
   * How `signup` ends: resolved, or thrown after showing a "Signup Failed" toast
   * with `description`; the thrown Error's message is `String(description)`.
   */
  datatype SignupOutcome = Resolved | Threw(description: Value, message: string)

  datatype SignupRun = SignupRun(state: State, calls: seq<Call>, outcome: SignupOutcome)

  /** `Array.isArray(detail) ? detail.join(", ") : detail || "Signup failed"`. */
  function SignupFailureDescription(detail: Value): (r: Value)
    ensures detail.Arr? ==> r == Str(ArrayJoin(detail.items, ", "))
    ensures !detail.Arr? && Truthy(detail) ==> r == detail
    ensures !detail.Arr? && !Truthy(detail) ==> r == Str("Signup failed")
  {
    if detail.Arr? then Str(ArrayJoin(detail.items, ", ")) else Or(detail, Str("Signup failed"))
  }

  /** Signup stops on a 401: its CSRF request or its registration post was refused as unauthorised. */
  predicate SignupUnauthorized(fakeAuth: bool, csrf: Option<HttpError>, post: Reply<()>) {
    !fakeAuth && (if csrf.Some? then Unauthorized(csrf.value) else IsUnauthorized(post))
  }

  function SignupThrew(detail: Value): SignupOutcome {
    var d := SignupFailureDescription(detail);
    Threw(d, ToStr(d))
  }

  /**
   * `signup(name, email, password)`: fetch a CSRF token, register, then call
   * `login` once with the same email and password. The name is never sent.
   * Both requests go through the shared instance, so a 401 on either removes
   * "user" from storage before `signup` throws.
   */
  function Signup(s: State, fakeAuth: bool, name: string, email: string, password: string,
                  csrf: Option<HttpError>, post: Reply<()>,
                  loginCsrf: Option<HttpError>, loginPost: Reply<LoginReply>): (r: SignupRun)
    ensures fakeAuth ==> r == SignupRun(s, [], Resolved)
    ensures !fakeAuth && csrf.Some? ==>
              r.state == s.(storage := StorageAfter(s.storage, csrf.value))
              && r.outcome == SignupThrew(Detail(csrf.value))
    ensures !fakeAuth && csrf.None? && post.Failure? ==>
              r.state == s.(storage := StorageAfter(s.storage, post.error))
              && r.outcome == SignupThrew(Detail(post.error))
    ensures !fakeAuth && (csrf.Some? || post.Failure?) ==> r.outcome.Threw?
    ensures !fakeAuth && csrf.None? && post.Success? ==>
              var l := Login(s, false, email, password, loginCsrf, loginPost);
              && r.calls == [GetCsrf, PostSignup(email, password)] + l.calls
              && r.state == l.state
              && (r.outcome.Resolved? <==> !l.outcome.Rejected?)
              && (l.outcome.Rejected? ==> r.outcome == SignupThrew(Undefined))
    ensures Consistent(s) ==> Consistent(r.state)
    ensures Persisted(s) && !SignupUnauthorized(fakeAuth, csrf, post) ==> Persisted(r.state)
    ensures SignupUnauthorized(fakeAuth, csrf, post) ==> StoredUser(r.state.storage).None?
  {
    if fakeAuth then SignupRun(s, [], Resolved)
    else if csrf.Some? then SignupRun(s.(storage := StorageAfter(s.storage, csrf.value)), [GetCsrf], SignupThrew(Detail(csrf.value)))
    else if post.Failure? then
      SignupRun(s.(storage := StorageAfter(s.storage, post.error)), [GetCsrf, PostSignup(email, password)],
                SignupThrew(Detail(post.error)))
    else
      var l := Login(s, false, email, password, loginCsrf, loginPost);
      var calls := [GetCsrf, PostSignup(email, password)] + l.calls;
      match l.outcome
      case Rejected(_) => SignupRun(l.state, calls, SignupThrew(Undefined))
      case _ => SignupRun(l.state, calls, Resolved)
  }

  /** After a successful registration exactly one login request follows, with the same credentials. */
  lemma SignupLogsInOnce(s: State, name: string, email: string, password: string,
                         loginCsrf: Option<HttpError>, loginPost: Reply<LoginReply>)
    requires loginCsrf.None?
    ensures var r := Signup(s, false, name, email, password, None, Success(()), loginCsrf, loginPost);
            && LoginPosts(r.calls) == 1
            && r.calls[..4] == [GetCsrf, PostSignup(email, password), GetCsrf, PostLogin(email, password)]
  {
    var l := Login(s, false, email, password, loginCsrf, loginPost);
    var r := Signup(s, false, name, email, password, None, Success(()), loginCsrf, loginPost);
    LoginPostsAppend([GetCsrf, PostSignup(email, password)], l.calls);
    LoginPostsAppend(l.calls[..2], l.calls[2..]);
    assert l.calls == l.calls[..2] + l.calls[2..];
    if |l.calls| > 2 {
      assert l.calls[2..] == [PostLogout];
    }
  }

  /** The display name given to `signup` has no effect at all. */
  lemma SignupIgnoresName(s: State, fakeAuth: bool, name1: string, name2: string, email: string, password: string,
                          csrf: Option<HttpError>, post: Reply<()>,
                          loginCsrf: Option<HttpError>, loginPost: Reply<LoginReply>)
    ensures Signup(s, fakeAuth, name1, email, password, csrf, post, loginCsrf, loginPost)
         == Signup(s, fakeAuth, name2, email, password, csrf, post, loginCsrf, loginPost)
  {
  }
}

=== FILE: sidebar.dfy ===
/**
 * The application sidebar: its drag-to-resize width within fixed bounds, the
 * collapse toggle, which menu it shows for the current path, which entry is
 * highlighted, and when the extra "Admin Panel" entry appears.
 */
module Sidebar {
  import opened Text

  const MinWidth := 240
  const MaxWidth := 400
  const CollapsedWidth := 80
  const InitialWidth := 280

  datatype Bar = Bar(width: int, resizing: bool, collapsed: bool)

  /** The drag bounds hold. */
  predicate WithinBounds(b: Bar) {
    MinWidth <= b.width <= MaxWidth
  }

  function Initial(): (b: Bar)
    ensures WithinBounds(b) && !b.resizing && !b.collapsed && b.width == InitialWidth
  {
    Bar(InitialWidth, false, false)
  }

  /** The pointer events the sidebar reacts to. */
  datatype Event = MouseDown | MouseMove(clientX: int) | MouseUp | ToggleCollapse

  /**
   * One event. The resize handle exists only while expanded, so a press
   * starts a drag only then; a move sets the width to the pointer's x only
   * during a drag and only within the bounds; a release ends the drag.
   */
  function Step(b: Bar, e: Event): (r: Bar)
    ensures r.collapsed == (if e.ToggleCollapse? then !b.collapsed else b.collapsed)
    ensures e.MouseDown? ==> r.resizing == (b.resizing || !b.collapsed) && r.width == b.width
    ensures e.MouseUp? ==> !r.resizing && r.width == b.width
    ensures e.MouseMove? ==> r.resizing == b.resizing
    ensures e.MouseMove? && b.resizing && MinWidth <= e.clientX <= MaxWidth ==> r.width == e.clientX
    ensures e.MouseMove? && !(b.resizing && MinWidth <= e.clientX <= MaxWidth) ==> r.width == b.width
    ensures e.ToggleCollapse? ==> r.width == b.width && r.resizing == b.resizing
    ensures WithinBounds(b) ==> WithinBounds(r)
  {
    match e
    case MouseDown => if b.collapsed then b else b.(resizing := true)
    case MouseMove(x) => if b.resizing && MinWidth <= x <= MaxWidth then b.(width := x) else b
    case MouseUp => b.(resizing := false)
    case ToggleCollapse => b.(collapsed := !b.collapsed)
  }

  function Run(b: Bar, events: seq<Event>): Bar
    decreases |events|
  {
    if |events| == 0 then b else Run(Step(b, events[0]), events[1..])
  }

  /** No sequence of events takes the width outside the bounds. */
  lemma {:induction false} RunWithinBounds(b: Bar, events: seq<Event>)
    requires WithinBounds(b)
    ensures WithinBounds(Run(b, events))
    decreases |events|
  {
    if |events| > 0 {
      RunWithinBounds(Step(b, events[0]), events[1..]);
    }
  }

  /** Moves without a press never change the width. */
  lemma {:induction false} MovesWithoutPressKeepWidth(b: Bar, xs: seq<int>)
    requires !b.resizing
    ensures Run(b, seq(|xs|, i requires 0 <= i < |xs| => MouseMove(xs[i]))) == b
    decreases |xs|
  {
    if |xs| > 0 {
      var events := seq(|xs|, i requires 0 <= i < |xs| => MouseMove(xs[i]));
      assert events[1..] == seq(|xs[1..]|, i requires 0 <= i < |xs[1..]| => MouseMove(xs[1..][i]));
      MovesWithoutPressKeepWidth(b, xs[1..]);
    }
  }

  /** The rendered width: the collapsed width, or the dragged width. */
  function CurrentWidth(b: Bar): (w: int)
    ensures b.collapsed ==> w == CollapsedWidth
    ensures !b.collapsed ==> w == b.width
    ensures WithinBounds(b) ==> w == CollapsedWidth || MinWidth <= w <= MaxWidth
  {
    if b.collapsed then CollapsedWidth else b.width
  }

  /** Collapsing twice restores the sidebar exactly. */
  lemma ToggleTwice(b: Bar)
    ensures Step(Step(b, ToggleCollapse), ToggleCollapse) == b
  {
  }

  // Menus

  datatype Item = Item(title: string, url: string)

  const UserMenu: seq<Item> := [
    Item("Dashboard", "/dashboard"),
    Item("My Bots", "/dashboard/bots"),
    Item("Analytics", "/dashboard/analytics"),
    Item("Messages", "/dashboard/messages"),
    Item("Settings", "/dashboard/settings"),
    Item("Billing", "/dashboard/billing")
  ]

  const AdminMenu: seq<Item> := [
    Item("Admin Panel", "/admin"),
    Item("All Users", "/admin/users"),
    Item("System Stats", "/admin/stats"),
    Item("Logs", "/admin/logs")
  ]

  const AdminPanelItem := Item("Admin Panel", "/admin")

  /** `pathname.startsWith('/admin')`. */
  predicate IsAdminRoute(path: string) {
    StartsWith(path, "/admin")
  }

  /** What the sidebar lists: its section heading, its menu, and the extra admin entry if shown. */
  datatype Menu = Menu(heading: string, items: seq<Item>, adminAccess: bool)

  function MenuFor(path: string, isAdmin: bool): (m: Menu)
    ensures IsAdminRoute(path) ==> m.items == AdminMenu && m.heading == "Admin Zone"
    ensures !IsAdminRoute(path) ==> m.items == UserMenu && m.heading == "Main"
    ensures m.adminAccess <==> !IsAdminRoute(path) && isAdmin
  {
    if IsAdminRoute(path) then Menu("Admin Zone", AdminMenu, false)
    else Menu("Main", UserMenu, isAdmin)
  }

  /** An entry is highlighted when the path is exactly its URL; a nested path highlights none. */
  predicate Highlighted(path: string, item: Item) {
    path == item.url
  }

  /** At most one entry of the shown menu is highlighted. */
  lemma AtMostOneHighlighted(path: string, isAdmin: bool)
    ensures var items := MenuFor(path, isAdmin).items;
            forall i, j :: 0 <= i < j < |items| && Highlighted(path, items[i]) ==> !Highlighted(path, items[j])
  {
  }

  /** Every admin entry's path counts as an admin route, and no user entry's does. */
  lemma MenusMatchTheirRoutes()
    ensures forall i :: 0 <= i < |AdminMenu| ==> IsAdminRoute(AdminMenu[i].url)
    ensures forall i :: 0 <= i < |UserMenu| ==> !IsAdminRoute(UserMenu[i].url)
  {
    assert forall i :: 0 <= i < |AdminMenu| ==> AdminMenu[i].url[..6] == "/admin";
    assert forall i :: 0 <= i < |UserMenu| ==> UserMenu[i].url[1] == 'd';
  }

  /** The prefix test also treats a path such as "/administrator" as the admin area. */
  lemma PrefixCatchesLookalikes()
    ensures IsAdminRoute("/administrator")
    ensures MenuFor("/administrator", true).items == AdminMenu
  {
    assert "/administrator"[..6] == "/admin";
  }
}

=== FILE: signuppage.dfy ===
/**
 * The registration page: the password confirmation check, the call into the
 * authentication context's `signup`, and what each outcome shows. Also the
 * corrected rendering of a list-valued `detail` for the context's failure toast.
 */
module SignupPage {
  import opened Opt
  import opened Text
  import opened JsValue
  import opened Http
  import opened Session
  import opened Guards

  datatype Form = Form(name: string, email: string, password: string, confirmPassword: string)

  datatype Toast = Toast(title: string, description: string)

  /**
   * A finished submission: the authentication state, the requests issued,
   * the navigation, the page's toast, the description of the context's own
   * "Signup Failed" toast (when it showed one), and the loading flag.
   */
  datatype Submitted = Submitted(
    session: State,
    calls: seq<Call>,
    navigateTo: Option<string>,
    toast: Toast,
    contextToast: Option<Value>,
    isLoading: bool)

  const MismatchToast := Toast("Passwords don't match", "Please make sure your passwords match.")
  const CreatedToast := Toast("Account created!", "You are now logged in.")

  /**
   * The page's catch block reads `err.response.data.detail`, but `signup`
   * rethrows a plain `Error`, which has no `response`: the fallback always shows.
   */
  const GenericFailureToast := Toast("Signup failed", "Something went wrong. Try again.")

  /** `handleSubmit` run to completion against the replies of the four requests `signup` may make. */
  function Submit(s: State, fakeAuth: bool, f: Form,
                  csrf: Option<HttpError>, post: Reply<()>,
                  loginCsrf: Option<HttpError>, loginPost: Reply<LoginReply>, isLoading: bool): (r: Submitted)
    ensures f.password != f.confirmPassword ==>
              r == Submitted(s, [], None, MismatchToast, None, isLoading)
    ensures f.password == f.confirmPassword ==>
              var run := Signup(s, fakeAuth, f.name, f.email, f.password, csrf, post, loginCsrf, loginPost);
              && r.session == run.state && r.calls == run.calls && !r.isLoading
              && (r.navigateTo == Some("/dashboard") <==> run.outcome.Resolved?)
              && (r.navigateTo.None? <==> run.outcome.Threw?)
              && (run.outcome.Resolved? ==> r.toast == CreatedToast && r.contextToast.None?)
              && (run.outcome.Threw? ==> r.toast == GenericFailureToast && r.contextToast == Some(run.outcome.description))
  {
    if f.password != f.confirmPassword then Submitted(s, [], None, MismatchToast, None, isLoading)
    else
      var run := Signup(s, fakeAuth, f.name, f.email, f.password, csrf, post, loginCsrf, loginPost);
      match run.outcome
      case Resolved => Submitted(run.state, run.calls, Some("/dashboard"), CreatedToast, None, false)
      case Threw(d, _) => Submitted(run.state, run.calls, None, GenericFailureToast, Some(d), false)
  }

  /** Whatever the server says about a failed registration, the page's own toast is the generic one. */
  lemma PageToastIgnoresServerDetail(s: State, f: Form, e: HttpError, loginCsrf: Option<HttpError>,
                                     loginPost: Reply<LoginReply>)
    requires f.password == f.confirmPassword
    ensures Submit(s, false, f, None, Failure(e), loginCsrf, loginPost, false).toast == GenericFailureToast
  {
  }

  /**
   * Registration succeeds but the follow-up sign-in is refused: `login`
   * swallows the failure, so the page still reports an account and heads to
   * the dashboard, where the signed-out session is sent to /login.
   */
  lemma RegisteredButSignedOut(s: State, f: Form, e: HttpError)
    requires !s.loading && f.password == f.confirmPassword && Detail(e).Str?
    ensures var r := Submit(s, false, f, None, Success(()), None, Failure(e), false);
            && r.toast == CreatedToast && r.navigateTo == Some("/dashboard")
            && !r.session.isAuthenticated
            && Render(r.session, ["dashboard"]) == Navigate("/login", true)
  {
    assert Lower("dashboard") == "dashboard";
  }

  /** A backend validation issue as written: a list `detail` of issue objects joins to "[object Object]". */
  lemma ListDetailRendersObjects(loc: seq<string>, msg: string)
    ensures SignupFailureDescription(Arr([Issue(loc, msg)])) == Str("[object Object]")
  {
  }

  /**
   * The corrected description: a list `detail` is rendered issue by issue as
   * the login failure is (location joined by ".", then the message), falling
   * back to "Signup failed" if an entry cannot be read; anything else as written.
   */
  function SignupDescriptionIntended(detail: Value): (r: Value)
    ensures detail.Arr? && DetailListText(detail.items).Describes? ==> r == Str(DetailListText(detail.items).text)
    ensures detail.Arr? && DetailListText(detail.items).Throws? ==> r == Str("Signup failed")
    ensures !detail.Arr? ==> r == SignupFailureDescription(detail)
    ensures r.Str? || Truthy(r)
  {
    if detail.Arr? then
      match DetailListText(detail.items)
      case Describes(t) => Str(t)
      case Throws(_) => Str("Signup failed")
    else SignupFailureDescription(detail)
  }

  /** Under the corrected description a list of issues reads as their texts joined by ", ". */
  lemma IntendedDescribesIssues(locs: seq<seq<string>>, msgs: seq<string>)
    requires |locs| == |msgs|
    ensures SignupDescriptionIntended(Arr(seq(|locs|, i requires 0 <= i < |locs| => Issue(locs[i], msgs[i]))))
            == Str(Join(seq(|locs|, i requires 0 <= i < |locs| => IssueText(locs[i], msgs[i])), ", "))
  {
    DetailListOfIssues(locs, msgs);
  }

  /** Where the page as written shows "[object Object]", the corrected description shows the issue itself. */
  lemma {:induction false} IntendedSingleIssue(loc: seq<string>, msg: string)
    ensures SignupDescriptionIntended(Arr([Issue(loc, msg)])) == Str(IssueText(loc, msg))
    ensures SignupDescriptionIntended(Arr([Issue(loc, msg)])) != SignupFailureDescription(Arr([Issue(loc, msg)]))
  {
    assert IssueText(loc, msg)[|Join(loc, ".")|] == ':';
    assert ':' !in "[object Object]";
    DetailListOfIssues([loc], [msg]);
    assert [Issue(loc, msg)] == seq(1, i requires 0 <= i < 1 => Issue([loc][i], [msg][i]));
    assert seq(1, i requires 0 <= i < 1 => IssueText([loc][i], [msg][i])) == [IssueText(loc, msg)];
  }
}

=== FILE: text.dfy ===
/**
 * The handful of JavaScript string operations the front end relies on:
 * `toLowerCase`/`toUpperCase` (over ASCII), `trim`, `includes`, `startsWith`,
 * `endsWith`, `split(c)[0]`, `Array.prototype.join` over strings, and the
 * decimal rendering of integers used in template literals.
 */
module Text {

  predicate IsUpper(c: char) { 'A' <= c <= 'Z' }

  predicate IsLower(c: char) { 'a' <= c <= 'z' }

  predicate IsDigit(c: char) { '0' <= c <= '9' }

  /** The `\w` class of JavaScript regular expressions. */
  predicate IsWordChar(c: char) { IsUpper(c) || IsLower(c) || IsDigit(c) || c == '_' }

  /** `toLowerCase` on one character, ASCII letters only. */
  function LowerChar(c: char): (r: char)
    ensures !IsUpper(r)
    ensures IsWordChar(r) <==> IsWordChar(c)
    ensures !IsUpper(c) ==> r == c
  {
    if IsUpper(c) then (c as int + 32) as char else c
  }

  /** `toUpperCase` on one character, ASCII letters only. */
  function UpperChar(c: char): (r: char)
    ensures !IsLower(r)
    ensures IsWordChar(r) <==> IsWordChar(c)
    ensures !IsLower(c) ==> r == c
  {
    if IsLower(c) then (c as int - 32) as char else c
  }

  function Lower(s: string): (r: string)
    ensures |r| == |s|
    ensures forall i :: 0 <= i < |s| ==> r[i] == LowerChar(s[i])
  {
    seq(|s|, i requires 0 <= i < |s| => LowerChar(s[i]))
  }

  /** Lower-casing twice is lower-casing once. */
  lemma LowerIdempotent(s: string)
    ensures Lower(Lower(s)) == Lower(s)
  {
  }

  predicate StartsWith(s: string, prefix: string) {
    |prefix| <= |s| && s[..|prefix|] == prefix
  }

  predicate EndsWith(s: string, suffix: string) {
    |suffix| <= |s| && s[|s| - |suffix|..] == suffix
  }

  /** `s.includes(sub)`, scanning candidate start positions left to right. */
  predicate Includes(s: string, sub: string)
    decreases |s|
  {
    StartsWith(s, sub) || (|s| > 0 && Includes(s[1..], sub))
  }

  /** `sub` occupies the window of `s` that starts at `i`. */
  ghost predicate OccursAt(s: string, sub: string, i: int) {
    0 <= i && i + |sub| <= |s| && s[i..i + |sub|] == sub
  }

  /** The scanning definition agrees with the window definition of a substring. */
  lemma {:induction false} IncludesIffOccurs(s: string, sub: string)
    ensures Includes(s, sub) <==> exists i :: OccursAt(s, sub, i)
    decreases |s|
  {
    if StartsWith(s, sub) {
      assert OccursAt(s, sub, 0);
    } else if |s| > 0 {
      IncludesIffOccurs(s[1..], sub);
      if Includes(s[1..], sub) {
        var i :| OccursAt(s[1..], sub, i);
        assert s[1..][i..i + |sub|] == s[i + 1..i + 1 + |sub|];
        assert OccursAt(s, sub, i + 1);
      }
      if exists i :: OccursAt(s, sub, i) {
        var i :| OccursAt(s, sub, i);
        if i > 0 {
          assert s[1..][i - 1..i - 1 + |sub|] == s[i..i + |sub|];
          assert OccursAt(s[1..], sub, i - 1);
        }
      }
    }
  }

  /** The empty string occurs in every string, so an empty search term matches everything. */
  lemma IncludesEmpty(s: string)
    ensures Includes(s, "")
  {
    assert StartsWith(s, "");
  }

  /**
   * The characters `String.prototype.trim` removes: the ECMAScript WhiteSpace
   * and LineTerminator code points.
   */
  predicate IsSpace(c: char) {
    || c == '\t' || c == '\n' || c == '\U{000B}' || c == '\U{000C}' || c == '\r' || c == ' '
    || c == '\U{00A0}' || c == '\U{1680}' || ('\U{2000}' <= c <= '\U{200A}')
    || c == '\U{2028}' || c == '\U{2029}' || c == '\U{202F}' || c == '\U{205F}'
    || c == '\U{3000}' || c == '\U{FEFF}'
  }

  predicate AllSpace(s: string) {
    forall i :: 0 <= i < |s| ==> IsSpace(s[i])
  }

  /** Drops leading white space: the result is the suffix left after it. */
  function TrimStart(s: string): (r: string)
    ensures |r| <= |s| && r == s[|s| - |r|..]
    ensures AllSpace(s[..|s| - |r|])
    ensures |r| > 0 ==> !IsSpace(r[0])
    decreases |s|
  {
    if |s| > 0 && IsSpace(s[0]) then TrimStart(s[1..]) else s
  }

  /** Drops trailing white space: the result is the prefix left before it. */
  function TrimEnd(s: string): (r: string)
    ensures |r| <= |s| && r == s[..|r|]
    ensures AllSpace(s[|r|..])
    ensures |r| > 0 ==> !IsSpace(r[|r| - 1])
    decreases |s|
  {
    if |s| > 0 && IsSpace(s[|s| - 1]) then TrimEnd(s[..|s| - 1]) else s
  }

  /**
   * `s.trim()`: the result is a slice `s[i..j]` with only white space outside it,
   * and it neither starts nor ends with white space.
   */
  function Trim(s: string): (r: string)
    ensures |r| <= |s|
    ensures |r| > 0 ==> !IsSpace(r[0]) && !IsSpace(r[|r| - 1])
    ensures exists i :: 0 <= i <= |s| - |r| && r == s[i..i + |r|]
                        && AllSpace(s[..i]) && AllSpace(s[i + |r|..])
  {
    var t := TrimStart(s);
    var r := TrimEnd(t);
    var i := |s| - |t|;
    assert r == s[i..i + |r|];
    assert s[i + |r|..] == t[|r|..];
    r
  }

  /** Trimming is idempotent. */
  lemma {:induction false} TrimIdempotent(s: string)
    ensures Trim(Trim(s)) == Trim(s)
  {
    var r := Trim(s);
    if |r| > 0 {
      assert TrimStart(r) == r;
      assert TrimEnd(r) == r;
    }
  }

  /** A string of white space only trims to the empty string. */
  lemma TrimAllSpace(s: string)
    requires AllSpace(s)
    ensures Trim(s) == ""
  {
  }

  /** `parts.join(sep)`. */
  function Join(parts: seq<string>, sep: string): string
    decreases |parts|
  {
    if |parts| == 0 then ""
    else if |parts| == 1 then parts[0]
    else parts[0] + sep + Join(parts[1..], sep)
  }

  /** `s.split(c)[0]`: the text before the first `c`, or all of `s` when there is none. */
  function TakeUntil(s: string, c: char): (r: string)
    ensures StartsWith(s, r)
    ensures c !in r
    ensures r == s || s[|r|] == c
    decreases |s|
  {
    if |s| == 0 || s[0] == c then "" else [s[0]] + TakeUntil(s[1..], c)
  }

  function DigitChar(d: nat): (c: char)
    requires d < 10
    ensures IsDigit(c)
  {
    ('0' as int + d) as char
  }

  /** The decimal numeral of `n`, as `String(n)` writes it. */
  function NatToString(n: nat): (r: string)
    ensures |r| > 0
    ensures forall i :: 0 <= i < |r| ==> IsDigit(r[i])
    decreases n
  {
    if n < 10 then [DigitChar(n)] else NatToString(n / 10) + [DigitChar(n % 10)]
  }

  /** The value of a decimal numeral. */
  function DigitsValue(s: string): nat
    requires forall i :: 0 <= i < |s| ==> IsDigit(s[i])
    decreases |s|
  {
    if |s| == 0 then 0
    else
      assert IsDigit(s[|s| - 1]);
      DigitsValue(s[..|s| - 1]) * 10 + (s[|s| - 1] as int - '0' as int)
  }

  /** Reading back a rendered numeral gives the number: rendering is injective. */
  lemma {:induction false} NatToStringRoundTrip(n: nat)
    ensures DigitsValue(NatToString(n)) == n
    decreases n
  {
    if n >= 10 {
      NatToStringRoundTrip(n / 10);
      var r := NatToString(n);
      assert r[..|r| - 1] == NatToString(n / 10);
    }
  }

  function IntToString(n: int): string {
    if n < 0 then "-" + NatToString(-n) else NatToString(n)
  }
}
